=== FILE: README.md ===
# Crash game model

A Dafny model of a browser "crash" betting game. Each round draws a hidden
crash point. A multiplier then climbs from 1x, and a bet that is cashed out
before the multiplier reaches the crash point pays stake × multiplier. Every
bet still active at the crash is lost. A few synthetic players bet alongside
the player and cash out at random. The game also draws the growth curve from
a table of reference samples.

The model has one module per core source file, plus one module of worked
rounds:

- `CrashData` (`crash_data.dfy`) models the queries over the reference
  sample table: the maximum, the threshold filter, the last sample and the
  closest-index search. The table is a parameter `ws: seq<real>` holding the
  sample values.
- `BetLedger` (`bet_ledger.dfy`) holds the bet record and the three `map`
  transforms the game applies to its bet list. These are the player's
  cashout, the synthetic players' cashouts and the crash resolution, each as
  a pure function from the old list to the new one.
- `Game` (`crash_game.dfy`) holds:
  - the random generators (crash point, bet amount, bet count, player
    name), each taking its `Math.random()` draw as an argument;
  - the synthetic-bet generator, as a loop;
  - class `CrashGame`, whose fields are the component's state. It has one
    method per handler: place bet, cashout, synthetic cashouts, crash, new
    round, round start and multiplier tick. Every method keeps the invariant
    `Valid()`. Its value part is the predicate `Consistent`:
    - the balance is not negative;
    - the multiplier is at least 1;
    - every bet record is consistent: an active bet has no result, a won
      bet has profit = stake × (multiplier − 1), and a lost bet has
      profit = −stake.

    Its phase part:
    - betting and running are never open together;
    - every entry with a player id is the player's;
    - from the opening of betting until the crash, an uncashed player bet
      and its list entries are still active.

    The preconditions encode the order of a round as the timers drive it:
    - a new round starts only when none is running (CrashGame.tsx:310 and
      :318);
    - the round opens only while waiting, once `startNewGame` has drawn its
      crash point (:274-276);
    - the crash is processed only after the tick has stopped the round, and
      only once per round (:306-307). A ghost flag `crashProcessed` records
      it, and `startNewGame` clears it.

    `ProcessAICashouts` is a helper of the tick. Its precondition does not
    stop a caller from calling it directly, or twice at one multiplier.
- `GraphDrawing` (`graph_drawing.dfy`) models the renderer as a producer of
  canvas commands (`Cmd`): the scales, the grid loops, the axes, the curve
  loop with its control points and tension, the palette and the label
  offset.
- `GraphCanvas` (`graph_canvas.dfy`) models the display range that the
  graph component hands to the renderer.
- `Scenarios` (`scenarios.dfy`) drives whole rounds through the class with
  fixed draws:
  - bet 50 and cash out at 2x;
  - bet 50 and ride into the crash;
  - bet while the round is running.

Randomness, the clock (`Date.now()`) and the per-tick growth
`0.5 · m^0.7 · Δt` are inputs of the methods. Money and multipliers are
`real`.

Behaviours of the code a reader might not expect:

- The crash point always lies in [99.9, 100]. The formula is
  `0.9 + 99 / r` for a draw r in [0, 1), so it exceeds 99.9 before rounding
  and the cap of 100 then applies. Despite the 0.9 offset, no round crashes
  below 99.9.
- The bet list is never trimmed. There is no retention limit.
- Placing a bet has no phase check. A bet placed while the round runs is
  debited and can be cashed out, but it is not listed.
- The multiplier is not clamped to the crash point on the crash tick.
- The closest-index search reads the last sample unguarded. On an empty
  table it throws rather than returning its fallback 0, so the model
  requires a non-empty table.
- The synthetic cashout chance is `0.1 · m`.

## Model

| member | source | states |
|---|---|---|
| `CrashData.MaxMultiplier` | src/utils/crashData/utils.ts:6-8 | the maximum is at least every sample and equal to one of them |
| `CrashData.DataSlice` | src/utils/crashData/utils.ts:11-13 | every kept sample is at most m, and each value at most m occurs exactly as often as in the table (nothing at or below m is dropped); the order is stated by `DataSliceAppend` |
| `CrashData.DataSliceAppend` | src/utils/crashData/utils.ts:11-13 | on any table the filter keeps table order: the slice of a concatenation is the concatenation of the slices |
| `CrashData.DataSliceAllAbove` | src/utils/crashData/utils.ts:11-13 | a table whose samples all exceed m yields an empty slice |
| `CrashData.DataSliceOfSortedIsPrefix` | src/utils/crashData/utils.ts:11-13 | on a sorted table the slice is the table's prefix up to the first sample above m, in table order |
| `CrashData.CrashPoint` | src/utils/crashData/utils.ts:17-19 | the crash point is a sample of the table and does not exceed the maximum |
| `CrashData.CrashPointIsMax` | src/utils/crashData/utils.ts:17-19 | on a sorted table the last sample equals the maximum |
| `CrashData.FindIndex` | src/utils/crashData/utils.ts:28 | `findIndex` gives the first index whose sample reaches t, or −1 exactly when no sample does |
| `CrashData.ClosestDataIndex` | src/utils/crashData/utils.ts:21-30 | the index is in range; it is the last index when t reaches the last sample; otherwise its sample reaches t and every earlier sample is below t |
| `CrashData.FallbackUnreachable` | src/utils/crashData/utils.ts:23-29 | below the last sample the search always succeeds, so the fallback 0 is never used |
| `CrashData.ClosestDataIndexMonotone` | src/utils/crashData/utils.ts:21-30 | a larger target never gives an earlier index, for any non-empty table |
| `CrashData.ClosestDataIndexBeyondMax` | src/utils/crashData/utils.ts:23-25 | a target at or above the maximum gives the last index |
| `CrashData.ClosestDataIndexBelowFirst` | src/utils/crashData/utils.ts:28-29 | a target at or below the first sample (and below the last) gives index 0 |
| `BetLedger.MarkWon` | src/components/CrashGame/CrashGame.tsx:163-168 | the won update keeps the id, the owner and the stake, and sets the status, multiplier and profit |
| `BetLedger.MarkLost` | src/components/CrashGame/CrashGame.tsx:225-230 | the lost update keeps the id, the owner and the stake, and yields a well-formed lost record at the crash point |
| `BetLedger.SettleCashout` | src/components/CrashGame/CrashGame.tsx:160-171 | the list keeps its ids, owners, stakes and order; entries with the player bet's id become won at m with the given profit; all others are unchanged |
| `BetLedger.CashoutOne` | src/components/CrashGame/CrashGame.tsx:191-211 | an eligible entry whose draw is below 0.1·m becomes won at m with profit stake·(m−1); any other entry is unchanged; well-formedness is kept |
| `BetLedger.AICashouts` | src/components/CrashGame/CrashGame.tsx:189-213 | same length and order; the player's bet and resolved bets are untouched; an active synthetic bet whose draw is below 0.1·m becomes won at m with profit stake·(m−1) |
| `BetLedger.ResolveCrash` | src/components/CrashGame/CrashGame.tsx:222-233 | same length and order; every active bet becomes lost at the crash point with profit −stake; resolved bets are untouched |
| `BetLedger.NoActiveAfterCrash` | src/components/CrashGame/CrashGame.tsx:222-233 | no bet is left active after the crash |
| `BetLedger.ResolveCrashIdempotent` | src/components/CrashGame/CrashGame.tsx:224 | resolving a second time, at any point, changes nothing, so no bet is penalised twice |
| `BetLedger.CashoutThenCrashKeepsWins` | src/components/CrashGame/CrashGame.tsx:193-233 | a bet a synthetic cashout settled is left as it is by a later crash |
| `BetLedger.AllSyntheticCashOutFromTen` | src/components/CrashGame/CrashGame.tsx:199 | from multiplier 10 on, every synthetic bet cashes out on the tick, because every draw is below 1 ≤ 0.1·m |
| `BetLedger.SettleCashoutWellFormed` | src/components/CrashGame/CrashGame.tsx:153-171 | the player's cashout keeps every record consistent when the rewritten entries carry the stake the profit was computed from |
| `BetLedger.AICashoutsWellFormed` | src/components/CrashGame/CrashGame.tsx:201-208 | synthetic cashouts keep every record consistent |
| `BetLedger.ResolveCrashWellFormed` | src/components/CrashGame/CrashGame.tsx:224-230 | crash resolution keeps every record consistent |
| `Game.Round` | src/components/CrashGame/CrashGame.tsx:28 | `Math.round` gives the integer within half a unit, with halves rounded up |
| `Game.CrashResult` | src/components/CrashGame/CrashGame.tsx:26 | for every non-zero draw below 1 the unrounded result exceeds 99.9 |
| `Game.GenerateCrashPoint` | src/components/CrashGame/CrashGame.tsx:20-29 | for every draw in [0, 1) the crash point lies in [99.9, 100] and has at most two decimals; a draw of 0 (division by zero) gives the cap |
| `Game.CentsAtLeast` | src/components/CrashGame/CrashGame.tsx:26-28 | for every non-zero draw the rounded result is at least 99.90 |
| `Game.CrashPointCappedBelowPoint99` | src/components/CrashGame/CrashGame.tsx:26-28 | every draw up to 0.99 gives exactly the 100x cap |
| `Game.RandomBetAmount` | src/components/CrashGame/CrashGame.tsx:45-47 | a synthetic stake is an integer in [10, 509] |
| `Game.RandomBetCount` | src/components/CrashGame/CrashGame.tsx:90 | a round gets between 2 and 5 synthetic bets |
| `Game.RandomPlayerName` | src/components/CrashGame/CrashGame.tsx:32-42 | the name is one of the sixteen listed names and never the player's own name |
| `Game.NewAiBet` | src/components/CrashGame/CrashGame.tsx:94-106 | a synthetic bet is eligible for cashout, active and unresolved, with an integer stake in [10, 509] |
| `Game.GenerateAIBets` | src/components/CrashGame/CrashGame.tsx:89-110 | the loop yields between 2 and 5 bets, the i-th built from the i-th draws, all active, unresolved and synthetic |
| `Game.NewPlayerBet` | src/components/CrashGame/CrashGame.tsx:127-134 | the player's new bet is owned by the player, active and unresolved, with the given stake |
| `Game.CashoutReturn` | src/components/CrashGame/CrashGame.tsx:153-157 | stake plus profit is stake × multiplier, and it is at least the stake |
| `Game.CashoutConsistent` | src/components/CrashGame/CrashGame.tsx:148-186 | a cashout from a consistent state with an uncashed player bet raises the balance and leads to a consistent state |
| `Game.CrashGame.constructor` | src/components/CrashGame/CrashGame.tsx:50-60 | the initial state: waiting, multiplier 1, no bets, empty history, balance 1000 |
| `Game.CrashGame.PlaceBet` | src/components/CrashGame/CrashGame.tsx:113-145 | an amount above the balance is refused first, then a non-positive one, each with no state change; otherwise the balance drops by exactly the amount, the new active bet becomes the player bet, and it is listed in front only while waiting |
| `Game.CrashGame.Cashout` | src/components/CrashGame/CrashGame.tsx:148-186 | it succeeds exactly when there is a player bet not yet cashed out and the round runs, else it changes nothing; on success the balance grows by stake × multiplier, and the player bet and its list entries become won with profit stake·(m−1); bets already won or lost stay as they are, so a lost bet is never paid out |
| `Game.CrashGame.ProcessAICashouts` | src/components/CrashGame/CrashGame.tsx:189-214 | the list becomes `AICashouts` of the old list; the state invariant is kept |
| `Game.CrashGame.ProcessCrash` | src/components/CrashGame/CrashGame.tsx:217-250 | called only once the round has stopped, and once per round; the crash point is appended at the end of the history; the list is resolved; the player bet is lost unless cashed out |
| `Game.CrashGame.StartNewGame` | src/components/CrashGame/CrashGame.tsx:257-271 | called only when no round runs; the round flags and the multiplier are reset and the player bet is dropped; the crash point is drawn in [99.9, 100]; 2–5 new synthetic bets go in front of the untrimmed list |
| `Game.CrashGame.StartRunning` | src/components/CrashGame/CrashGame.tsx:274-276 | called only while waiting, with a crash point drawn in [99.9, 100]; betting closes and the round runs |
| `Game.CrashGame.Tick` | src/components/CrashGame/CrashGame.tsx:282-311 | the multiplier grows by the increment and is not clamped; the synthetic bets get their cashout chance; the round crashes exactly when the new value reaches the crash point, which then resolves the list and the player bet and appends to the history |
| `GraphDrawing.XScale` | src/utils/graphDrawing.ts:32 | the x scale maps displayMax onto the full plot width |
| `GraphDrawing.YScale` | src/utils/graphDrawing.ts:33 | the y scale maps displayMax onto the full plot height |
| `GraphDrawing.PlotX` | src/utils/graphDrawing.ts:143 | with a positive scale, a value is plotted right of the y axis exactly when it is positive, and on the axis exactly when it is 0 |
| `GraphDrawing.PlotY` | src/utils/graphDrawing.ts:144 | with a positive scale, a value is plotted above the baseline exactly when it is positive, and on it exactly when it is 0 |
| `GraphDrawing.PlotInside` | src/utils/graphDrawing.ts:27-33 | a value in [0, displayMax] is plotted inside the plot rectangle, and displayMax itself at its top-right corner |
| `GraphDrawing.PlotOnDiagonal` | src/utils/graphDrawing.ts:143-150 | a line or curve end at the plotted position of any value lies on the line through the origin with slope −yScale/xScale |
| `GraphDrawing.OriginOnDiagonal` | src/utils/graphDrawing.ts:125-130 | the move to the origin that opens the path lies on that line too |
| `GraphDrawing.GridStep` | src/utils/graphDrawing.ts:58-60 | the step is 1, 2, 5 or 10; up to 50 it keeps displayMax within ten steps |
| `GraphDrawing.DrawGrid` | src/utils/graphDrawing.ts:45-91 | the grid is the vertical lines followed by the horizontal lines, floor(displayMax/step)+1 of each |
| `GraphDrawing.Column` | src/utils/graphDrawing.ts:64-74 | one vertical line: both ends at the plotted x of i, from the top padding down to the baseline, labelled i |
| `GraphDrawing.Row` | src/utils/graphDrawing.ts:79-89 | one horizontal line: both ends at the plotted y of i, from the left padding to the right padding, labelled i |
| `GraphDrawing.GridColumns` | src/utils/graphDrawing.ts:63-75 | the first loop draws one vertical line at each multiple of the step up to displayMax |
| `GraphDrawing.GridRows` | src/utils/graphDrawing.ts:78-90 | the second loop draws one horizontal line at each multiple of the step up to displayMax |
| `GraphDrawing.GridSizes` | src/utils/graphDrawing.ts:63-90 | each grid line is five commands |
| `GraphDrawing.ColumnAt` | src/utils/graphDrawing.ts:63-66 | the k-th vertical line is drawn at multiplier k × step |
| `GraphDrawing.RowAt` | src/utils/graphDrawing.ts:78-81 | the k-th horizontal line is drawn at multiplier k × step |
| `GraphDrawing.AtMostElevenLines` | src/utils/graphDrawing.ts:58-63 | up to a display range of 50 there are at most 11 lines per axis |
| `GraphDrawing.Axes` | src/utils/graphDrawing.ts:93-113 | both axes start at the origin; the x axis runs right along the baseline and the y axis runs up to the top padding |
| `GraphDrawing.AxesAtZero` | src/utils/graphDrawing.ts:93-113 | the axes are where 0 is plotted: the x axis coincides with the grid's zero row, the y axis lies on the grid's zero column, and both start at the point the curve opens with |
| `GraphDrawing.SliceEnd` | src/utils/graphDrawing.ts:133 | the end `slice` uses is within the list, equals an in-range end, and is capped at the length |
| `GraphDrawing.Relevant` | src/utils/graphDrawing.ts:133 | the relevant samples are a prefix of the table, of length dataIndex + 1 when that index is in range |
| `GraphDrawing.Skip` | src/utils/graphDrawing.ts:141 | the first sample is skipped exactly when it exists and is not above 0 |
| `GraphDrawing.Tension` | src/utils/graphDrawing.ts:156 | the tension never exceeds 0.7, is at least 0.2 for non-negative values, and is 0.7 exactly from 15 on |
| `GraphDrawing.CurveCmds` | src/utils/graphDrawing.ts:129-165 | after k samples the path has one command for the origin plus one per drawn sample; it starts at the origin and ends at a point |
| `GraphDrawing.Curve` | src/utils/graphDrawing.ts:129-166 | the whole path is the move to the origin plus one segment per relevant sample, less a skipped first sample |
| `GraphDrawing.CurvePointAt` | src/utils/graphDrawing.ts:140-165 | the k-th path point is the plotted point of its sample; only the first segment can be straight, and it is exactly when the first sample is above 0 |
| `GraphDrawing.Segment` | src/utils/graphDrawing.ts:154-160 | a curved segment is a quadratic curve that ends at its target point |
| `GraphDrawing.SegmentControl` | src/utils/graphDrawing.ts:154-158 | a segment from (px, py) ends at its target, with its control point at the x midpoint of the two ends and a t fraction of the y rise above the start |
| `GraphDrawing.CurveControlAt` | src/utils/graphDrawing.ts:152-158 | every curved segment of the path starts at the previous path point and uses the tension of its own sample |
| `GraphDrawing.CurvePath` | src/utils/graphDrawing.ts:124-166 | the `forEach` loop, tracking the previous point, builds exactly the path `Curve` describes |
| `GraphDrawing.CurveOnDiagonal` | src/utils/graphDrawing.ts:125-165 | every point of the path, the origin included, lies on the diagonal through the origin, so the curve's points are collinear |
| `GraphDrawing.PaletteFor` | src/utils/graphDrawing.ts:181-189 | the stroke colour and the marker colour agree; the crashed gradient is one colour |
| `GraphDrawing.TextOffset` | src/utils/graphDrawing.ts:233 | the offset is −80 exactly when fewer than 80 pixels remain to the edge, else 15; a label for a point on the canvas starts at least 65 pixels before the edge |
| `GraphDrawing.CurrentPoint` | src/utils/graphDrawing.ts:206-238 | the marker ends with the value label 10 pixels above the point and at least 65 pixels before the edge |
| `GraphDrawing.LastValue` | src/utils/graphDrawing.ts:169 | the last point's value is the last relevant sample, or 0 when there is none |
| `GraphDrawing.CurveFinish` | src/utils/graphDrawing.ts:168-203 | the stroke is in the state's colour; the area drops straight to the axis under the last point and is closed; the gradient runs from the origin to the last point in the state's stops; both marker dots sit on the last point; the label carries the last value |
| `GraphDrawing.EmptySliceMarksOrigin` | src/utils/graphDrawing.ts:169-171 | with no relevant sample the marker sits on the origin |
| `GraphDrawing.CurveColoursFollowCrashed` | src/utils/graphDrawing.ts:168-203 | the stroke colour changes with `crashed`, while the drop to the axis, the gradient's end points, the marker dots' positions and the label do not |
| `GraphDrawing.DrawCurve` | src/utils/graphDrawing.ts:115-204 | a fresh path, then exactly the curve, then the finishing commands |
| `GraphDrawing.DrawGraph` | src/utils/graphDrawing.ts:14-43 | the grid, the axes and the curve in that order, with the scales mapping [0, displayMax] onto the plot |
| `GraphCanvas.Ceil` | src/components/CrashGame/GraphCanvas.tsx:49 | `Math.ceil` gives the least integer not below x |
| `GraphCanvas.DisplayMax` | src/components/CrashGame/GraphCanvas.tsx:49 | the range is at least each of the three candidates and equal to one of them |
| `GraphCanvas.DisplayRangeCovers` | src/components/CrashGame/GraphCanvas.tsx:48-49 | with the game's range of 10 the display range is at least 10 (so the scales are defined), covers every sample and 1.2 × the multiplier, and lies strictly above any multiplier of at least 1 |
| `GraphCanvas.SamplesPlotInside` | src/components/CrashGame/GraphCanvas.tsx:48-59 | every non-negative sample is plotted inside the plot rectangle |
| `Scenarios.NewRound` | src/components/CrashGame/CrashGame.tsx:257-271 | with all draws at 0.5 the first round waits with balance 1000, crash point 100 and only synthetic bets listed |
| `Scenarios.CashOutAtTwo` | src/components/CrashGame/CrashGame.tsx:113-186 | betting 50 leaves 950; cashing out at 2x gives 1050 with profit 50; a second cashout does nothing |
| `Scenarios.RideIntoCrash` | src/components/CrashGame/CrashGame.tsx:282-311 | without a cashout the crash tick loses the bet with profit −50, the balance stays 950, and the history is the one crash point |
| `Scenarios.BetWhileRunning` | src/components/CrashGame/CrashGame.tsx:113-145 | a bet placed while running is not listed but still pays out 1050 at 2x |

## Left out

- Timers and scheduling are not modelled: the 3 s and 4 s `setTimeout`s, the 50 ms `setInterval`, effect dependency arrays and cleanup, and `requestAnimationFrame` with the resize listener in the graph component. The round start and each tick are separate methods. Their preconditions admit the timers' order: a new round only when none runs, the opening only after a crash point is drawn, one crash per round. They do not bound how often a caller ticks or calls `ProcessAICashouts` directly.
- React's state batching and the stale values captured by `useCallback` closures are not modelled. Every method reads the latest state. For example, the tick's crash call captures `playerBet` from an earlier render.
- The growth law `0.5 · currentValue^0.7 · Δt` is floating-point numerics over wall-clock time. It is the `increment` argument of `Game.CrashGame.Tick`, which must not be negative.
- `Math.random()` becomes explicit draws in [0, 1):
  - one for the crash point;
  - one for the bet count;
  - sequences for the synthetic stakes and names;
  - one draw per list entry for the cashout test.

  The draws for the discarded auto-cashout value are not modelled.
- `Date.now()` becomes an integer `now`. Bet ids are the datatype `BetId`, not template strings.
- `Game.CrashGame.PlaceBet` requires that no listed bet already carries `player-<now>`. Two bets placed within the same millisecond would share an id. The model then could not keep the stake of every entry with the player bet's id equal to the player bet's stake.
- `CrashData.CrashPoint` requires a non-empty table. On an empty one the source's `wsData[wsData.length - 1].v` (src/utils/crashData/utils.ts:17-19) throws a TypeError, and exceptions are not modelled.
- `Game.GenerateAIBets` stamps every synthetic id with one `now`. The source calls `Date.now()` once per iteration (src/components/CrashGame/CrashGame.tsx:100), so ids built in different milliseconds can carry different stamps. Ids stay distinct either way through the index `i`.
- `CrashData.ClosestDataIndex` requires a non-empty table. The source reads `wsData[wsData.length - 1].v` unguarded (src/utils/crashData/utils.ts:23), which throws on an empty table, and exceptions are not modelled.
- `CrashData.MaxMultiplier` requires a non-empty table. `Math.max()` of nothing is −Infinity, and infinities are not modelled.
- The demo seeding effect (src/components/CrashGame/CrashGame.tsx:63-86) is not modelled. It fills the history and the list with random past rounds, so the constructor starts from empty lists.
- The handlers' `toast` messages, `toFixed` formatting and the JSX layout are not modelled. A refusal is the `PlaceOutcome` value instead of a toast.
- Canvas details with no geometric content are not modelled: `clearRect`, line widths, fonts, text alignment, `globalAlpha`, shadow blur and the label text format. Arcs are `Dot`/`GlowDot` commands.
- The graph component receives `gameHistory` but never draws it, so the model has no history markers.
- Of a sample point only its value `v` is modelled. The sample table file is not part of this model.
- In src/utils/graphDrawing.ts:203, `width` names no parameter or local of `drawCurve`. The model passes drawGraph's canvas width. What the free name resolves to at run time is not modelled.
- `GraphDrawing.DrawGrid` requires `displayMax > 0`, as drawGraph's scales divide by it. The graph component always passes a range of at least 10. JavaScript's results for a zero or negative range (infinite scales, an empty grid) are not modelled.
- `GraphDrawing.DrawGraph` requires `displayMax > 0` for the same reason.
- Integer and real arithmetic are exact. IEEE rounding of the doubles in the source is not modelled, except for `Math.round`, `Math.floor` and `Math.ceil`, which are modelled exactly.
- The player's auto-cashout argument is accepted and ignored, as in the source. Auto-cashout is not implemented there.
- The thin UI components are not part of this model: the betting panel, the bets table, the statistics panel and the graph wrapper that forwards the closest index.

=== FILE: bet_ledger.dfy ===
/** The bet records of the crash game and the three list transforms the game
    applies to its bet list (src/components/CrashGame/CrashGame.tsx): the
    player's cashout, the synthetic players' cashouts and the crash
    resolution. Each is a `bets.map(...)` in the source, so each is a pure
    function from the old list to the new one here. */
module BetLedger {

  datatype Option<T> = None | Some(value: T)

  datatype Status = Active | Won | Lost

  /** Bet ids are template strings built from `Date.now()`: `player-<stamp>`
      for the player and `ai-<stamp>-<i>` for the i-th synthetic bet of a round.
      Two ids are equal exactly when their parts are. */
  datatype BetId = PlayerId(stamp: int) | AiId(stamp: int, index: int)

  /** A bet; `multiplier` and `profit` are `null` until the bet is resolved. */
  datatype Bet = Bet(
    id: BetId,
    player: string,
    amount: real,
    multiplier: Option<real>,
    profit: Option<real>,
    status: Status)

  /** The owner name that marks the player's own bet. */
  const PlayerName: string := "You"

  /** The record invariant: an active bet carries no result; a won bet's profit
      is amount * (multiplier - 1); a lost bet's profit is -amount. */
  predicate WellFormed(b: Bet) {
    match b.status
    case Active => b.multiplier.None? && b.profit.None?
    case Won => b.multiplier.Some? && b.profit.Some? && b.profit.value == b.amount * (b.multiplier.value - 1.0)
    case Lost => b.multiplier.Some? && b.profit.Some? && b.profit.value == -b.amount
  }

  predicate AllWellFormed(bets: seq<Bet>) {
    forall i :: 0 <= i < |bets| ==> WellFormed(bets[i])
  }

  /** Two lists hold the same bets (ids, owners and stakes) in the same order. */
  predicate SameStakes(a: seq<Bet>, b: seq<Bet>) {
    |a| == |b| &&
    forall i :: 0 <= i < |a| ==> a[i].id == b[i].id && a[i].player == b[i].player && a[i].amount == b[i].amount
  }

  /** The `{...bet, multiplier, profit, status: 'won'}` record update. */
  function MarkWon(b: Bet, m: real, profit: real): (r: Bet)
    ensures r.id == b.id && r.player == b.player && r.amount == b.amount
    ensures r.status == Won && r.multiplier == Some(m) && r.profit == Some(profit)
  {
    b.(multiplier := Some(m), profit := Some(profit), status := Won)
  }

  /** The `{...bet, multiplier: crashPoint, profit: -amount, status: 'lost'}` update. */
  function MarkLost(b: Bet, crashPoint: real): (r: Bet)
    ensures r.id == b.id && r.player == b.player && r.amount == b.amount
    ensures WellFormed(r) && r.status == Lost && r.multiplier == Some(crashPoint)
  {
    b.(multiplier := Some(crashPoint), profit := Some(-b.amount), status := Lost)
  }

  /** handleCashout's list update: every entry whose id is the player bet's id
      becomes won at `m` with the given profit; nothing else changes. The
      entry's status is not consulted. */
  function SettleCashout(bets: seq<Bet>, id: BetId, m: real, profit: real): (r: seq<Bet>)
    ensures SameStakes(r, bets)
    ensures forall i :: 0 <= i < |bets| && bets[i].id != id ==> r[i] == bets[i]
    ensures forall i :: 0 <= i < |bets| && bets[i].id == id ==>
      r[i].status == Won && r[i].multiplier == Some(m) && r[i].profit == Some(profit)
  {
    seq(|bets|, i requires 0 <= i < |bets| =>
      if bets[i].id == id then MarkWon(bets[i], m, profit) else bets[i])
  }

  /** A synthetic bet is considered for a cashout when it is not the
      player's and still active. */
  predicate Eligible(b: Bet) {
    b.player != PlayerName && b.status == Active
  }

  /** `Math.random() < 0.1 * m`: the draw that decides one cashout. */
  predicate ShouldCashOut(draw: real, m: real) {
    draw < 0.1 * m
  }

  /** processAICashouts' list update, with `draws[i]` the random number drawn
      for entry i: an eligible entry whose draw falls below 0.1 * m becomes
      won at m with profit amount * (m - 1); every other entry is kept. */
  function AICashouts(bets: seq<Bet>, m: real, draws: seq<real>): (r: seq<Bet>)
    requires |draws| == |bets|
    ensures SameStakes(r, bets)
    ensures forall i :: 0 <= i < |bets| && !(Eligible(bets[i]) && ShouldCashOut(draws[i], m)) ==>
      r[i] == bets[i]
    ensures forall i :: 0 <= i < |bets| && Eligible(bets[i]) && ShouldCashOut(draws[i], m) ==>
      r[i].status == Won && r[i].multiplier == Some(m) &&
      r[i].profit == Some(bets[i].amount * (m - 1.0))
  {
    var r := seq(|bets|, i requires 0 <= i < |bets| => CashoutOne(bets[i], draws[i], m));
    assert forall i :: 0 <= i < |bets| ==> r[i] == CashoutOne(bets[i], draws[i], m);
    r
  }

  /** The callback of processAICashouts' `map`, for one entry and its draw. */
  function CashoutOne(b: Bet, draw: real, m: real): (r: Bet)
    ensures r.id == b.id && r.player == b.player && r.amount == b.amount
    ensures !(Eligible(b) && ShouldCashOut(draw, m)) ==> r == b
    ensures Eligible(b) && ShouldCashOut(draw, m) ==>
      r.status == Won && r.multiplier == Some(m) && r.profit == Some(b.amount * (m - 1.0))
    ensures WellFormed(b) ==> WellFormed(r)
  {
    if Eligible(b) && ShouldCashOut(draw, m) then
      var won := MarkWon(b, m, b.amount * (m - 1.0));
      assert won.multiplier.value == m && won.amount == b.amount;
      won
    else b
  }

  /** processCrash's list update: every active entry is lost at the crash
      point; resolved entries are kept. */
  function ResolveCrash(bets: seq<Bet>, crashPoint: real): (r: seq<Bet>)
    ensures SameStakes(r, bets)
    ensures forall i :: 0 <= i < |bets| && bets[i].status != Active ==> r[i] == bets[i]
    ensures forall i :: 0 <= i < |bets| && bets[i].status == Active ==>
      r[i].status == Lost && r[i].multiplier == Some(crashPoint) && r[i].profit == Some(-bets[i].amount)
  {
    seq(|bets|, i requires 0 <= i < |bets| =>
      if bets[i].status == Active then MarkLost(bets[i], crashPoint) else bets[i])
  }

  /** After a crash no bet is left active. */
  lemma NoActiveAfterCrash(bets: seq<Bet>, crashPoint: real)
    ensures forall i :: 0 <= i < |bets| ==> ResolveCrash(bets, crashPoint)[i].status != Active
  {
  }

  /** Resolving a crash a second time (at any point) changes nothing: bets
      are never penalised twice. */
  lemma ResolveCrashIdempotent(bets: seq<Bet>, c1: real, c2: real)
    ensures ResolveCrash(ResolveCrash(bets, c1), c2) == ResolveCrash(bets, c1)
  {
    var once := ResolveCrash(bets, c1);
    var twice := ResolveCrash(once, c2);
    assert forall i :: 0 <= i < |once| ==> twice[i] == once[i];
  }

  /** A synthetic cashout round never touches resolved bets or the player's bet,
      and a later crash leaves what it settled in place. */
  lemma CashoutThenCrashKeepsWins(bets: seq<Bet>, m: real, draws: seq<real>, c: real)
    requires |draws| == |bets|
    ensures forall i :: 0 <= i < |bets| && Eligible(bets[i]) && ShouldCashOut(draws[i], m) ==>
      ResolveCrash(AICashouts(bets, m, draws), c)[i] == AICashouts(bets, m, draws)[i]
  {
  }

  /** Once the multiplier reaches 10, every eligible synthetic bet cashes out
      on the tick, since every draw lies below 1 <= 0.1 * m. */
  lemma AllSyntheticCashOutFromTen(bets: seq<Bet>, m: real, draws: seq<real>)
    requires |draws| == |bets| && m >= 10.0
    requires forall i :: 0 <= i < |draws| ==> 0.0 <= draws[i] < 1.0
    ensures forall i :: 0 <= i < |bets| ==>
      AICashouts(bets, m, draws)[i].player == PlayerName || AICashouts(bets, m, draws)[i].status != Active
  {
  }

  /** The three transforms keep the record invariant; the player's cashout
      does so provided the entries it rewrites carry the stake its profit
      was computed from. */
  lemma SettleCashoutWellFormed(bets: seq<Bet>, id: BetId, amount: real, m: real)
    requires AllWellFormed(bets)
    requires forall i :: 0 <= i < |bets| && bets[i].id == id ==> bets[i].amount == amount
    ensures AllWellFormed(SettleCashout(bets, id, m, amount * (m - 1.0)))
  {
    var r := SettleCashout(bets, id, m, amount * (m - 1.0));
    forall i | 0 <= i < |r| ensures WellFormed(r[i]) {
      assert WellFormed(bets[i]);
    }
  }

  lemma AICashoutsWellFormed(bets: seq<Bet>, m: real, draws: seq<real>)
    requires |draws| == |bets| && AllWellFormed(bets)
    ensures AllWellFormed(AICashouts(bets, m, draws))
  {
    var r := AICashouts(bets, m, draws);
    forall i | 0 <= i < |r| ensures WellFormed(r[i]) {
      assert WellFormed(bets[i]);
      assert r[i] == CashoutOne(bets[i], draws[i], m);
    }
  }

  lemma ResolveCrashWellFormed(bets: seq<Bet>, crashPoint: real)
    requires AllWellFormed(bets)
    ensures AllWellFormed(ResolveCrash(bets, crashPoint))
  {
  }
}

=== FILE: crash_data.dfy ===
/** Queries over the reference curve (src/utils/crashData/utils.ts).

    The sample table `wsData` is a constant defined in a data file that is not
    part of this model, so every query takes the sample values `ws` as a
    parameter; a sample is represented by its value `v` alone. */
module CrashData {

  /** The samples are ordered by value, as the reference table is laid out. */
  ghost predicate NonDecreasing(ws: seq<real>) {
    forall i, j :: 0 <= i <= j < |ws| ==> ws[i] <= ws[j]
  }

  /** getMaxMultiplier: `Math.max` over every sample value. */
  function MaxMultiplier(ws: seq<real>): (r: real)
    requires |ws| > 0
    ensures forall i :: 0 <= i < |ws| ==> ws[i] <= r
    ensures exists i :: 0 <= i < |ws| && ws[i] == r
  {
    if |ws| == 1 then ws[0]
    else
      var rest := MaxMultiplier(ws[1..]);
      assert forall i :: 1 <= i < |ws| ==> ws[i] == ws[1..][i - 1];
      if ws[0] >= rest then ws[0] else rest
  }

  /** getDataSlice: the samples whose value is at most `m`, in table order. */
  function DataSlice(ws: seq<real>, m: real): (r: seq<real>)
    ensures |r| <= |ws|
    ensures forall x :: x in r ==> x <= m
    ensures forall x :: x <= m ==> multiset(r)[x] == multiset(ws)[x]
  {
    if ws == [] then []
    else
      assert ws == [ws[0]] + ws[1..];
      (if ws[0] <= m then [ws[0]] else []) + DataSlice(ws[1..], m)
  }

  /** getCrashPoint: the value of the last sample. */
  function CrashPoint(ws: seq<real>): (r: real)
    requires |ws| > 0
    ensures r in ws
    ensures r <= MaxMultiplier(ws)
  {
    ws[|ws| - 1]
  }

  /** `Array.prototype.findIndex` with the test `v >= t`: the first index whose
      sample reaches `t`, or -1 when there is none. */
  function FindIndex(ws: seq<real>, t: real): (r: int)
    ensures -1 <= r < |ws|
    ensures r >= 0 ==> ws[r] >= t && forall j :: 0 <= j < r ==> ws[j] < t
    ensures r == -1 ==> forall j :: 0 <= j < |ws| ==> ws[j] < t
  {
    if ws == [] then -1
    else if ws[0] >= t then 0
    else
      var k := FindIndex(ws[1..], t);
      assert forall j :: 1 <= j < |ws| ==> ws[j] == ws[1..][j - 1];
      if k < 0 then -1 else k + 1
  }

  /** getClosestDataIndex: the last index once `t` reaches the last sample,
      otherwise the first index whose sample reaches `t`, with 0 as the
      fallback when the search finds nothing. The code reads the last sample
      unguarded, so the table must not be empty. */
  function ClosestDataIndex(ws: seq<real>, t: real): (i: int)
    requires |ws| > 0
    ensures 0 <= i < |ws|
    ensures t >= ws[|ws| - 1] ==> i == |ws| - 1
    ensures t < ws[|ws| - 1] ==> ws[i] >= t && forall j :: 0 <= j < i ==> ws[j] < t
  {
    if t >= ws[|ws| - 1] then |ws| - 1
    else
      var index := FindIndex(ws, t);
      if index >= 0 then index else 0
  }

  /** The fallback `0` is never taken: below the last sample the search
      always succeeds, because the last sample itself passes the test. */
  lemma FallbackUnreachable(ws: seq<real>, t: real)
    requires |ws| > 0 && t < ws[|ws| - 1]
    ensures FindIndex(ws, t) >= 0
    ensures ClosestDataIndex(ws, t) == FindIndex(ws, t)
  {
  }

  /** A larger target never yields an earlier index; this holds for every
      non-empty table, sorted or not. */
  lemma ClosestDataIndexMonotone(ws: seq<real>, t1: real, t2: real)
    requires |ws| > 0 && t1 <= t2
    ensures ClosestDataIndex(ws, t1) <= ClosestDataIndex(ws, t2)
  {
    var last := ws[|ws| - 1];
    if t2 < last {
      var i2 := ClosestDataIndex(ws, t2);
      assert ws[i2] >= t1;
    }
  }

  /** A target at or above the table's maximum selects the last index. */
  lemma ClosestDataIndexBeyondMax(ws: seq<real>, t: real)
    requires |ws| > 0 && t >= MaxMultiplier(ws)
    ensures ClosestDataIndex(ws, t) == |ws| - 1
  {
    assert ws[|ws| - 1] <= MaxMultiplier(ws);
  }

  /** A target at or below the first sample (and below the last) selects index 0. */
  lemma ClosestDataIndexBelowFirst(ws: seq<real>, t: real)
    requires |ws| > 0 && t <= ws[0] && t < ws[|ws| - 1]
    ensures ClosestDataIndex(ws, t) == 0
  {
  }

  /** On a sorted table the last sample is the maximum. */
  lemma CrashPointIsMax(ws: seq<real>)
    requires |ws| > 0 && NonDecreasing(ws)
    ensures CrashPoint(ws) == MaxMultiplier(ws)
  {
    var i :| 0 <= i < |ws| && ws[i] == MaxMultiplier(ws);
    assert ws[i] <= ws[|ws| - 1];
  }

  /** A table whose samples all exceed `m` has an empty slice. */
  lemma {:induction false} DataSliceAllAbove(ws: seq<real>, m: real)
    requires forall j :: 0 <= j < |ws| ==> ws[j] > m
    ensures DataSlice(ws, m) == []
  {
    if ws != [] {
      DataSliceAllAbove(ws[1..], m);
    }
  }

  /** The filter keeps table order on any table: the slice of two tables
      laid end to end is the slice of the first followed by the slice of the
      second. With the one-sample case, which the definition gives directly,
      this pins the slice down as the kept samples in their table order. */
  lemma {:induction false} DataSliceAppend(a: seq<real>, b: seq<real>, m: real)
    ensures DataSlice(a + b, m) == DataSlice(a, m) + DataSlice(b, m)
  {
    if a != [] {
      assert (a + b)[1..] == a[1..] + b;
      DataSliceAppend(a[1..], b, m);
    } else {
      assert a + b == b;
    }
  }

  /** On a sorted table the slice is a prefix of the table: the filter keeps
      table order and stops at the first sample above `m`. */
  lemma {:induction false} DataSliceOfSortedIsPrefix(ws: seq<real>, m: real)
    requires NonDecreasing(ws)
    ensures DataSlice(ws, m) == ws[..|DataSlice(ws, m)|]
    ensures forall j :: |DataSlice(ws, m)| <= j < |ws| ==> ws[j] > m
  {
    if ws != [] {
      var tail := ws[1..];
      assert NonDecreasing(tail) by {
        forall i, j | 0 <= i <= j < |tail| ensures tail[i] <= tail[j] {
          assert tail[i] == ws[i + 1] && tail[j] == ws[j + 1];
        }
      }
      DataSliceOfSortedIsPrefix(tail, m);
      if ws[0] > m {
        forall j | 0 <= j < |ws| ensures ws[j] > m {
          assert ws[0] <= ws[j];
        }
        DataSliceAllAbove(ws, m);
      } else {
        var s := DataSlice(tail, m);
        assert DataSlice(ws, m) == [ws[0]] + s;
        assert s == tail[..|s|];
        assert [ws[0]] + tail[..|s|] == ws[..|s| + 1];
        forall j | |s| + 1 <= j < |ws| ensures ws[j] > m {
          assert tail[j - 1] == ws[j];
        }
      }
    }
  }
}

=== FILE: crash_game.dfy ===
/** The round and bet bookkeeping of the crash game component
    (src/components/CrashGame/CrashGame.tsx).

    The component's React state becomes the fields of class `CrashGame`, and
    each handler becomes a method. `Math.random()` draws, `Date.now()` stamps
    and the per-tick growth `0.5 * currentValue^0.7 * deltaTime` are inputs of
    the methods; the timers that call the handlers are not modelled. */
module Game {
  import opened BetLedger

  // ---------------------------------------------------------------------------
  // Random helpers: each takes the `Math.random()` draw, a real in [0, 1).
  // ---------------------------------------------------------------------------

  const HouseEdge: real := 0.99

  /** `Math.round`: the nearest integer, halves rounded up. */
  function Round(x: real): (n: int)
    ensures x - 0.5 < n as real <= x + 0.5
  {
    (x + 0.5).Floor
  }

  /** generateCrashPoint: `min(round(100 * (0.9 + 100 * 0.99 / r)) / 100, 100)`.
      A draw of 0 divides by zero; the resulting Infinity is capped to 100.
      Because 99 / r exceeds 99 for every draw below 1, the round's crash
      point is always between 99.9 and 100, with two decimals at most. */
  function GenerateCrashPoint(r: real): (c: real)
    requires 0.0 <= r < 1.0
    ensures 99.9 <= c <= 100.0
    ensures TwoDecimals(c)
    ensures r == 0.0 ==> c == 100.0
  {
    if r == 0.0 then 100.0
    else
      var cents := Round(CrashResult(r) * 100.0);
      CentsAtLeast(r);
      var rounded := cents as real / 100.0;
      CentsHaveTwoDecimals(cents);
      if rounded < 100.0 then rounded else 100.0
  }

  /** c has at most two decimals: 100 * c is a whole number. */
  predicate TwoDecimals(c: real) {
    (c * 100.0).Floor as real == c * 100.0
  }

  lemma CentsHaveTwoDecimals(cents: int)
    ensures TwoDecimals(cents as real / 100.0)
  {
    assert (cents as real / 100.0) * 100.0 == cents as real;
  }

  /** The unrounded value `0.9 + 100 * houseEdge * (1 / r)`. */
  function CrashResult(r: real): (x: real)
    requires r != 0.0
    ensures 0.0 < r < 1.0 ==> x > 99.9
  {
    var q := 1.0 / r;
    assert 0.0 < r < 1.0 ==> q > 1.0 by {
      assert r * q == 1.0;
    }
    0.9 + 100.0 * HouseEdge * q
  }

  lemma CentsAtLeast(r: real)
    requires 0.0 < r < 1.0
    ensures Round(CrashResult(r) * 100.0) >= 9990
  {
    var q := 1.0 / r;
    assert q > 1.0 by {
      assert r * q == 1.0;
    }
    assert CrashResult(r) == 0.9 + 99.0 * q;
    assert CrashResult(r) * 100.0 > 9990.0;
  }

  /** For every draw up to 0.99 the crash point is exactly the 100x cap. */
  lemma CrashPointCappedBelowPoint99(r: real)
    requires 0.0 <= r <= 0.99
    ensures GenerateCrashPoint(r) == 100.0
  {
    if r > 0.0 {
      assert r * (1.0 / r) == 1.0;
      assert 1.0 / r >= 1.0 / 0.99 by {
        assert 0.99 * (1.0 / r) >= r * (1.0 / r);
      }
    }
  }

  /** getRandomBetAmount: `floor(r * 500) + 10`. */
  function RandomBetAmount(r: real): (a: int)
    requires 0.0 <= r < 1.0
    ensures 10 <= a <= 509
  {
    (r * 500.0).Floor + 10
  }

  /** generateAIBets' count: `floor(r * 4) + 2`. */
  function RandomBetCount(r: real): (n: int)
    requires 0.0 <= r < 1.0
    ensures 2 <= n <= 5
  {
    (r * 4.0).Floor + 2
  }

  const PlayerNames: seq<string> := [
    "CryptoKing", "LuckyGambler", "WhaleBet", "CasinoRoyale",
    "GambleTron", "HighRoller", "FortuneSeeker", "JackpotHunter",
    "BetMaster", "LuckyCharm", "RiskyBusiness", "AllInPlayer",
    "VegasWinner", "SlotMaster", "BetHunter", "RoulettePro"]

  /** getRandomPlayerName: `playerNames[floor(r * 16)]`. No synthetic name is
      the player's own name, so the owner test in processAICashouts never
      skips a synthetic bet. */
  function RandomPlayerName(r: real): (name: string)
    requires 0.0 <= r < 1.0
    ensures name in PlayerNames
    ensures name != PlayerName
  {
    PlayerNames[(r * 16.0).Floor]
  }

  predicate IsDraw(r: real) {
    0.0 <= r < 1.0
  }

  /** The synthetic bet pushed by generateAIBets as its i-th entry. */
  function NewAiBet(now: int, i: int, amountDraw: real, nameDraw: real): (b: Bet)
    requires IsDraw(amountDraw) && IsDraw(nameDraw)
    ensures b.id == AiId(now, i) && Eligible(b) && WellFormed(b)
    ensures 10.0 <= b.amount <= 509.0 && b.amount == b.amount.Floor as real
  {
    Bet(AiId(now, i), RandomPlayerName(nameDraw), RandomBetAmount(amountDraw) as real, None, None, Active)
  }

  /** generateAIBets: between two and five fresh synthetic bets, all active
      and unresolved. The auto-cashout value the source draws for each bet is
      discarded there, so it has no counterpart here. */
  method GenerateAIBets(countDraw: real, amountDraws: seq<real>, nameDraws: seq<real>, now: int)
    returns (aiBets: seq<Bet>)
    requires IsDraw(countDraw)
    requires |amountDraws| >= 5 && |nameDraws| >= 5
    requires forall k :: 0 <= k < |amountDraws| ==> IsDraw(amountDraws[k])
    requires forall k :: 0 <= k < |nameDraws| ==> IsDraw(nameDraws[k])
    ensures |aiBets| == RandomBetCount(countDraw) && 2 <= |aiBets| <= 5
    ensures forall k :: 0 <= k < |aiBets| ==> aiBets[k] == NewAiBet(now, k, amountDraws[k], nameDraws[k])
    ensures forall k :: 0 <= k < |aiBets| ==> Eligible(aiBets[k]) && aiBets[k].id.AiId?
    ensures AllWellFormed(aiBets)
  {
    var numberOfBets := RandomBetCount(countDraw);
    aiBets := [];
    for i := 0 to numberOfBets
      invariant |aiBets| == i
      invariant forall k :: 0 <= k < i ==> aiBets[k] == NewAiBet(now, k, amountDraws[k], nameDraws[k])
    {
      var betAmount := RandomBetAmount(amountDraws[i]);
      var bet := Bet(AiId(now, i), RandomPlayerName(nameDraws[i]), betAmount as real, None, None, Active);
      assert bet == NewAiBet(now, i, amountDraws[i], nameDraws[i]);
      aiBets := aiBets + [bet];
    }
  }

  // ---------------------------------------------------------------------------
  // The component state.
  // ---------------------------------------------------------------------------

  /** handlePlaceBet's outcomes: placed, or one of the two error toasts. */
  datatype PlaceOutcome = Placed | InsufficientBalance | InvalidAmount

  /** The bet record handlePlaceBet builds. */
  function NewPlayerBet(amount: real, now: int): (b: Bet)
    ensures b.id == PlayerId(now) && b.player == PlayerName && b.amount == amount
    ensures b.status == Active && WellFormed(b)
  {
    Bet(PlayerId(now), PlayerName, amount, None, None, Active)
  }

  /** Stake plus profit is the stake times the multiplier, and at least the stake. */
  lemma CashoutReturn(amount: real, m: real)
    requires amount > 0.0 && m >= 1.0
    ensures amount + amount * (m - 1.0) == amount * m >= amount
  {
    assert amount * m - amount == amount * (m - 1.0);
  }

  /** The invariant of the game state: the balance never goes negative, the
      multiplier never drops below 1, every listed bet satisfies the record
      invariant, a cashed-out player bet is won, and every list entry carrying
      the player bet's id carries its stake. */
  predicate Consistent(balance: real, m: real, bets: seq<Bet>, playerBet: Option<Bet>, cashedOut: bool) {
    && balance >= 0.0
    && m >= 1.0
    && AllWellFormed(bets)
    && (playerBet.Some? ==> PlayerBetOk(playerBet.value))
    && (cashedOut ==> playerBet.Some? && playerBet.value.status == Won)
    && (playerBet.Some? ==>
          forall i :: 0 <= i < |bets| && bets[i].id == playerBet.value.id ==>
            bets[i].amount == playerBet.value.amount)
  }

  /** Cashing out keeps the invariant: the balance grows by stake times
      multiplier, and the settled list and the won player bet stay
      consistent with each other. */
  lemma CashoutConsistent(balance: real, m: real, bets: seq<Bet>, pb: Bet)
    requires Consistent(balance, m, bets, Some(pb), false)
    ensures var profit := pb.amount * (m - 1.0);
      && balance + pb.amount * m > balance
      && Consistent(balance + pb.amount * m, m, SettleCashout(bets, pb.id, m, profit),
                    Some(MarkWon(pb, m, profit)), true)
  {
    CashoutReturn(pb.amount, m);
    SettleCashoutWellFormed(bets, pb.id, pb.amount, m);
  }

  /** Every entry carrying a player id is the player's. */
  predicate PlayerEntriesOwned(bets: seq<Bet>) {
    forall i :: 0 <= i < |bets| && bets[i].id.PlayerId? ==> bets[i].player == PlayerName
  }

  /** Putting well-formed synthetic bets in front of a list keeps it well
      formed and keeps every player entry the player's. */
  lemma PrependSynthetic(aiBets: seq<Bet>, bets: seq<Bet>)
    requires AllWellFormed(aiBets) && forall k :: 0 <= k < |aiBets| ==> aiBets[k].id.AiId?
    requires AllWellFormed(bets) && PlayerEntriesOwned(bets)
    ensures AllWellFormed(aiBets + bets) && PlayerEntriesOwned(aiBets + bets)
  {
    forall i | 0 <= i < |aiBets + bets|
      ensures WellFormed((aiBets + bets)[i])
      ensures (aiBets + bets)[i].id.PlayerId? ==> (aiBets + bets)[i].player == PlayerName
    {
      if i >= |aiBets| {
        assert (aiBets + bets)[i] == bets[i - |aiBets|];
      }
    }
  }

  /** What holds of the player's current bet record. */
  predicate PlayerBetOk(b: Bet) {
    b.player == PlayerName && b.id.PlayerId? && b.amount > 0.0 && WellFormed(b)
  }

  class CrashGame {
    var isGameRunning: bool
    var waitingForNextGame: bool
    var currentMultiplier: real
    var targetCrashPoint: real
    var playerBet: Option<Bet>
    var hasPlacedBet: bool
    var hasPlayerCashedOut: bool
    var crashed: bool
    var bets: seq<Bet>
    var gameHistory: seq<real>
    var balance: real
    /** Whether this round's crash has been processed; the source processes
        it once, from the tick that reaches the crash point. */
    ghost var crashProcessed: bool

    /** The state invariant: the values are `Consistent`; betting and
        running are never open together; every entry carrying a player id is
        the player's; and from the opening of betting until the crash, a
        player bet that has not been cashed out is still active, in the
        list as well. */
    ghost predicate Valid()
      reads this
    {
      && Consistent(balance, currentMultiplier, bets, playerBet, hasPlayerCashedOut)
      && (waitingForNextGame ==> !isGameRunning)
      && PlayerEntriesOwned(bets)
      && (isGameRunning || waitingForNextGame ==> !crashProcessed)
      && (playerBet.Some? && !hasPlayerCashedOut && (isGameRunning || waitingForNextGame) ==>
            && playerBet.value.status == Active
            && forall i :: 0 <= i < |bets| && bets[i].id == playerBet.value.id ==> bets[i].status == Active)
    }

    /** The `useState` initial values. */
    constructor ()
      ensures Valid()
      ensures !isGameRunning && waitingForNextGame && !crashed
      ensures currentMultiplier == 1.0 && targetCrashPoint == 0.0
      ensures playerBet == None && !hasPlacedBet && !hasPlayerCashedOut
      ensures bets == [] && gameHistory == [] && balance == 1000.0
      ensures !crashProcessed
    {
      isGameRunning := false;
      waitingForNextGame := true;
      currentMultiplier := 1.0;
      targetCrashPoint := 0.0;
      playerBet := None;
      hasPlacedBet := false;
      hasPlayerCashedOut := false;
      crashed := false;
      bets := [];
      gameHistory := [];
      balance := 1000.0;
      crashProcessed := false;
    }

    /** handlePlaceBet. An amount above the balance is refused first, then a
        non-positive one; nothing changes on refusal. Otherwise the stake is
        debited, the new active bet becomes the player bet, and it is put at
        the front of the list only while waiting for the next round. There is
        no phase check and the auto-cashout argument is not used. `now` is
        the `Date.now()` stamp of the bet's id, which no listed bet carries. */
    method PlaceBet(amount: real, autoCashout: real, now: int) returns (outcome: PlaceOutcome)
      requires Valid()
      requires forall i :: 0 <= i < |bets| ==> bets[i].id != PlayerId(now)
      modifies this`balance, this`bets, this`playerBet, this`hasPlacedBet, this`hasPlayerCashedOut
      ensures Valid()
      ensures amount > old(balance) ==> outcome == InsufficientBalance
      ensures amount <= old(balance) && amount <= 0.0 ==> outcome == InvalidAmount
      ensures outcome == Placed <==> 0.0 < amount <= old(balance)
      ensures outcome != Placed ==> unchanged(this)
      ensures outcome == Placed ==>
        && balance == old(balance) - amount
        && playerBet == Some(NewPlayerBet(amount, now))
        && hasPlacedBet && !hasPlayerCashedOut
        && bets == (if waitingForNextGame then [NewPlayerBet(amount, now)] + old(bets) else old(bets))
    {
      if amount > balance {
        return InsufficientBalance;
      }
      if amount <= 0.0 {
        return InvalidAmount;
      }
      hasPlacedBet := true;
      hasPlayerCashedOut := false;
      var newPlayerBet := NewPlayerBet(amount, now);
      playerBet := Some(newPlayerBet);
      balance := balance - amount;
      if waitingForNextGame {
        bets := [newPlayerBet] + bets;
      }
      outcome := Placed;
    }

    /** handleCashout. A no-op unless there is a player bet, it has not been
        cashed out and the round is running; so a second cashout changes
        nothing. Otherwise the balance is credited with stake * multiplier
        (stake plus profit), and the player bet and every list entry with its
        id become won at the current multiplier. */
    method Cashout() returns (done: bool)
      requires Valid()
      modifies this`balance, this`bets, this`playerBet, this`hasPlayerCashedOut
      ensures Valid()
      ensures done <==> old(playerBet).Some? && !old(hasPlayerCashedOut) && isGameRunning
      ensures !done ==> unchanged(this)
      ensures done ==>
        var pb := old(playerBet).value;
        var profit := pb.amount * (currentMultiplier - 1.0);
        && hasPlayerCashedOut
        && balance == old(balance) + pb.amount * currentMultiplier
        && balance > old(balance)
        && bets == SettleCashout(old(bets), pb.id, currentMultiplier, profit)
        && playerBet == Some(MarkWon(pb, currentMultiplier, profit))
      ensures forall i :: 0 <= i < |old(bets)| && old(bets)[i].status != Active ==> bets[i] == old(bets)[i]
    {
      if playerBet.None? || hasPlayerCashedOut || !isGameRunning {
        return false;
      }
      hasPlayerCashedOut := true;
      var pb := playerBet.value;
      var profit := pb.amount * (currentMultiplier - 1.0);
      var totalReturn := pb.amount + profit;
      CashoutReturn(pb.amount, currentMultiplier);
      CashoutConsistent(balance, currentMultiplier, bets, pb);
      balance := balance + totalReturn;
      bets := SettleCashout(bets, pb.id, currentMultiplier, profit);
      playerBet := Some(MarkWon(pb, currentMultiplier, profit));
      done := true;
    }

    /** processAICashouts at multiplier `m`, `draws[i]` being the draw for
        list entry i. */
    method ProcessAICashouts(m: real, draws: seq<real>)
      requires Valid() && |draws| == |bets|
      modifies this`bets
      ensures Valid()
      ensures bets == AICashouts(old(bets), m, draws)
    {
      AICashoutsWellFormed(bets, m, draws);
      bets := AICashouts(bets, m, draws);
    }

    /** processCrash: the crash point is appended to the history, every
        active bet is lost at it, and the player bet is lost too unless it
        was cashed out. */
    method ProcessCrash(crashPoint: real)
      requires Valid() && !isGameRunning && !waitingForNextGame && !crashProcessed
      modifies this`gameHistory, this`bets, this`playerBet, this`crashProcessed
      ensures Valid() && crashProcessed
      ensures gameHistory == old(gameHistory) + [crashPoint]
      ensures bets == ResolveCrash(old(bets), crashPoint)
      ensures playerBet == if old(playerBet).Some? && !hasPlayerCashedOut
                           then Some(MarkLost(old(playerBet).value, crashPoint))
                           else old(playerBet)
    {
      gameHistory := gameHistory + [crashPoint];
      ResolveCrashWellFormed(bets, crashPoint);
      bets := ResolveCrash(bets, crashPoint);
      if playerBet.Some? && !hasPlayerCashedOut {
        playerBet := Some(MarkLost(playerBet.value, crashPoint));
      }
      crashProcessed := true;
    }

    /** startNewGame up to its timer: the round flags and the multiplier are
        reset, the player bet is dropped, a crash point is drawn and the new
        synthetic bets are put in front of the list (which is never
        trimmed). */
    method StartNewGame(crashDraw: real, countDraw: real, amountDraws: seq<real>, nameDraws: seq<real>, now: int)
      requires Valid() && !isGameRunning
      requires IsDraw(crashDraw) && IsDraw(countDraw)
      requires |amountDraws| >= 5 && |nameDraws| >= 5
      requires forall k :: 0 <= k < |amountDraws| ==> IsDraw(amountDraws[k])
      requires forall k :: 0 <= k < |nameDraws| ==> IsDraw(nameDraws[k])
      modifies this`waitingForNextGame, this`crashed, this`currentMultiplier, this`hasPlayerCashedOut,
               this`hasPlacedBet, this`playerBet, this`targetCrashPoint, this`bets, this`crashProcessed
      ensures Valid() && !crashProcessed
      ensures waitingForNextGame && !crashed && currentMultiplier == 1.0
      ensures !hasPlayerCashedOut && !hasPlacedBet && playerBet == None
      ensures targetCrashPoint == GenerateCrashPoint(crashDraw)
      ensures 99.9 <= targetCrashPoint <= 100.0
      ensures var n := |bets| - |old(bets)|;
        && n == RandomBetCount(countDraw)
        && bets[n..] == old(bets)
        && forall k :: 0 <= k < n ==> bets[k] == NewAiBet(now, k, amountDraws[k], nameDraws[k])
    {
      waitingForNextGame := true;
      crashProcessed := false;
      crashed := false;
      currentMultiplier := 1.0;
      hasPlayerCashedOut := false;
      hasPlacedBet := false;
      playerBet := None;
      var newCrashPoint := GenerateCrashPoint(crashDraw);
      targetCrashPoint := newCrashPoint;
      var aiBets := GenerateAIBets(countDraw, amountDraws, nameDraws, now);
      PrependSynthetic(aiBets, bets);
      bets := aiBets + bets;
    }

    /** The timer callback that opens the round: betting closes and the
        multiplier starts running. Only startNewGame arms this timer, so the
        round's crash point has been drawn. */
    method StartRunning()
      requires Valid() && waitingForNextGame && 99.9 <= targetCrashPoint <= 100.0
      modifies this`waitingForNextGame, this`isGameRunning
      ensures Valid()
      ensures !waitingForNextGame && isGameRunning
    {
      waitingForNextGame := false;
      isGameRunning := true;
    }

    /** One interval tick while the round runs. The multiplier grows by
        `increment` (the growth law times the elapsed time, never negative),
        the synthetic bets get their cashout chance at the new value, and the
        round crashes exactly when the new value reaches the crash point. The
        multiplier is not clamped to the crash point, and a synthetic bet can
        cash out on the crash tick before the remaining bets are lost. */
    method Tick(increment: real, draws: seq<real>) returns (crashedNow: bool)
      requires Valid() && isGameRunning
      requires increment >= 0.0 && |draws| == |bets|
      modifies this`currentMultiplier, this`bets, this`crashed, this`isGameRunning,
               this`gameHistory, this`playerBet, this`crashProcessed
      ensures Valid() && crashProcessed == crashedNow
      ensures currentMultiplier == old(currentMultiplier) + increment
      ensures crashedNow <==> currentMultiplier >= targetCrashPoint
      ensures isGameRunning == !crashedNow && crashed == (old(crashed) || crashedNow)
      ensures var settled := AICashouts(old(bets), currentMultiplier, draws);
        bets == if crashedNow then ResolveCrash(settled, targetCrashPoint) else settled
      ensures gameHistory == if crashedNow then old(gameHistory) + [targetCrashPoint] else old(gameHistory)
      ensures playerBet == if crashedNow && old(playerBet).Some? && !hasPlayerCashedOut
                           then Some(MarkLost(old(playerBet).value, targetCrashPoint))
                           else old(playerBet)
    {
      var newValue := currentMultiplier + increment;
      currentMultiplier := newValue;
      ProcessAICashouts(newValue, draws);
      crashedNow := newValue >= targetCrashPoint;
      if crashedNow {
        crashed := true;
        isGameRunning := false;
        ProcessCrash(targetCrashPoint);
      }
    }
  }
}

=== FILE: graph_canvas.dfy ===
/** The display range of the graph component
    (src/components/CrashGame/GraphCanvas.tsx): each frame draws the graph
    over [0, displayMax], where displayMax is the largest of the range the
    game passes in, the largest reference sample, and 1.2 times the current
    multiplier rounded up. */
module GraphCanvas {
  import CrashData
  import GraphDrawing

  /** `Math.ceil`: the least integer not below x. */
  function Ceil(x: real): (c: int)
    ensures x <= c as real < x + 1.0
  {
    -((-x).Floor)
  }

  /** `Math.max(maxMultiplier, dataMax, Math.ceil(multiplier * 1.2))`. */
  function DisplayMax(maxMultiplier: real, dataMax: real, multiplier: real): (d: real)
    ensures d >= maxMultiplier && d >= dataMax && d >= Ceil(multiplier * 1.2) as real
    ensures d == maxMultiplier || d == dataMax || d == Ceil(multiplier * 1.2) as real
  {
    var grown := Ceil(multiplier * 1.2) as real;
    var m := if maxMultiplier >= dataMax then maxMultiplier else dataMax;
    if m >= grown then m else grown
  }

  /** The range the game passes in. */
  const GameMaxMultiplier: real := 10.0

  /** With the game's range of 10 and dataMax taken from the sample table:
      the range is at least 10, so drawGraph's scales are defined; every
      sample and 1.2 times the current multiplier fall within it; and a
      multiplier of at least 1 stays strictly below its top. */
  lemma DisplayRangeCovers(ws: seq<real>, multiplier: real)
    requires |ws| > 0
    ensures var d := DisplayMax(GameMaxMultiplier, CrashData.MaxMultiplier(ws), multiplier);
      && d >= 10.0
      && (forall i :: 0 <= i < |ws| ==> ws[i] <= d)
      && multiplier * 1.2 <= d
      && (multiplier >= 1.0 ==> multiplier < d)
  {
  }

  /** Every sample of the table that is not negative is plotted inside the
      plot rectangle of a canvas at least as large as the padding. */
  lemma SamplesPlotInside(ws: seq<real>, multiplier: real, width: real, height: real, i: int)
    requires |ws| > 0 && 0 <= i < |ws| && ws[i] >= 0.0
    requires width >= GraphDrawing.PadLeft + GraphDrawing.PadRight
    requires height >= GraphDrawing.PadTop + GraphDrawing.PadBottom
    ensures var d := DisplayMax(GameMaxMultiplier, CrashData.MaxMultiplier(ws), multiplier);
      && GraphDrawing.PadLeft <= GraphDrawing.PlotX(ws[i], GraphDrawing.XScale(width, d)) <= width - GraphDrawing.PadRight
      && GraphDrawing.PadTop <= GraphDrawing.PlotY(ws[i], GraphDrawing.YScale(height, d), height) <= GraphDrawing.BaseY(height)
  {
    var d := DisplayMax(GameMaxMultiplier, CrashData.MaxMultiplier(ws), multiplier);
    DisplayRangeCovers(ws, multiplier);
    GraphDrawing.PlotInside(ws[i], width, height, d);
  }
}

=== FILE: graph_drawing.dfy ===
/** The growth-curve renderer (src/utils/graphDrawing.ts) as a function from
    its inputs to the list of canvas commands it issues. Only commands with
    geometric or colour content are kept; fonts, line widths, alpha and
    `clearRect` are not modelled. The sample table is the parameter `ws`. */
module GraphDrawing {

  // The plot padding: left 60, right 40, top 40, bottom 60.
  const PadLeft: real := 60.0
  const PadRight: real := 40.0
  const PadTop: real := 40.0
  const PadBottom: real := 60.0

  const GridColour: string := "rgba(255, 255, 255, 0.05)"
  const AxisColour: string := "rgba(255, 255, 255, 0.2)"

  datatype Style =
    | Solid(colour: string)
    | Gradient(x0: real, y0: real, x1: real, y1: real, fromColour: string, toColour: string)

  datatype Cmd =
    | BeginPath
    | MoveTo(x: real, y: real)
    | LineTo(x: real, y: real)
    | QuadTo(cpx: real, cpy: real, x: real, y: real)
    | Stroke(style: Style)
    | ClosePath
    | Fill(style: Style)
    | Dot(cx: real, cy: real, radius: real, colour: string)
    | GlowDot(cx: real, cy: real, radius: real, colour: string, glow: string)
    | Label(value: real, x: real, y: real)

  /** A path command: it moves the pen to the point (x, y). */
  predicate IsPoint(c: Cmd) {
    c.MoveTo? || c.LineTo? || c.QuadTo?
  }

  // ---------------------------------------------------------------------------
  // Geometry
  // ---------------------------------------------------------------------------

  function GraphWidth(width: real): real { width - PadLeft - PadRight }
  function GraphHeight(height: real): real { height - PadTop - PadBottom }

  /** The y coordinate of the x axis: the bottom edge of the plot area. */
  function BaseY(height: real): real { height - PadBottom }

  /** drawGraph's scales: pixels per unit of multiplier on each axis. */
  function XScale(width: real, displayMax: real): (s: real)
    requires displayMax > 0.0
    ensures s * displayMax == GraphWidth(width)
  {
    GraphWidth(width) / displayMax
  }

  function YScale(height: real, displayMax: real): (s: real)
    requires displayMax > 0.0
    ensures s * displayMax == GraphHeight(height)
  {
    GraphHeight(height) / displayMax
  }

  /** Where a sample of value v is plotted. Both coordinates are driven by
      the same v, so the curve is drawn along a straight diagonal. */
  function PlotX(v: real, xScale: real): (x: real)
    ensures xScale > 0.0 ==> (x > PadLeft <==> v > 0.0) && (x == PadLeft <==> v == 0.0)
  {
    PadLeft + v * xScale
  }

  function PlotY(v: real, yScale: real, height: real): (y: real)
    ensures yScale > 0.0 ==> (y < BaseY(height) <==> v > 0.0) && (y == BaseY(height) <==> v == 0.0)
  {
    BaseY(height) - v * yScale
  }

  /** A value in [0, displayMax] lands inside the plot rectangle, and
      displayMax itself lands in its top-right corner. */
  lemma PlotInside(v: real, width: real, height: real, displayMax: real)
    requires displayMax > 0.0 && 0.0 <= v <= displayMax
    requires width >= PadLeft + PadRight && height >= PadTop + PadBottom
    ensures PadLeft <= PlotX(v, XScale(width, displayMax)) <= width - PadRight
    ensures PadTop <= PlotY(v, YScale(height, displayMax), height) <= BaseY(height)
    ensures v == displayMax ==>
      PlotX(v, XScale(width, displayMax)) == width - PadRight &&
      PlotY(v, YScale(height, displayMax), height) == PadTop
  {
    var xs, ys := XScale(width, displayMax), YScale(height, displayMax);
    assert xs >= 0.0 && ys >= 0.0;
    assert v * xs <= displayMax * xs;
    assert v * ys <= displayMax * ys;
  }

  /** Every plotted point lies on the line through the origin
      (PadLeft, BaseY) with slope -yScale / xScale. */
  lemma PlotOnDiagonal(v: real, xScale: real, yScale: real, height: real, c: Cmd)
    requires (c.LineTo? || c.QuadTo?) && c.x == PlotX(v, xScale) && c.y == PlotY(v, yScale, height)
    ensures OnDiagonal(c, height, xScale, yScale)
  {
    assert (c.y - BaseY(height)) * xScale == -(v * yScale) * xScale;
    assert -(c.x - PadLeft) * yScale == -(v * xScale) * yScale;
  }

  /** c is a path point on the line through the origin (PadLeft, BaseY)
      with slope -yScale / xScale. */
  predicate OnDiagonal(c: Cmd, height: real, xScale: real, yScale: real) {
    IsPoint(c) && (c.y - BaseY(height)) * xScale == -(c.x - PadLeft) * yScale
  }

  // ---------------------------------------------------------------------------
  // drawGrid
  // ---------------------------------------------------------------------------

  /** The grid step: 1 up to 10, 2 up to 20, 5 up to 50, 10 beyond. Up to 50
      it keeps displayMax within ten steps. */
  function GridStep(displayMax: real): (s: int)
    ensures s == 1 || s == 2 || s == 5 || s == 10
    ensures displayMax <= 50.0 ==> displayMax <= 10.0 * s as real
    ensures displayMax > 10.0 ==> s > 1
  {
    if displayMax <= 10.0 then 1
    else if displayMax <= 20.0 then 2
    else if displayMax <= 50.0 then 5
    else 10
  }

  /** The number of loop rounds of `for (i = 0; i <= displayMax; i += step)`. */
  function LineCount(displayMax: real, step: int): int
    requires step > 0
  {
    (displayMax / step as real).Floor + 1
  }

  /** The vertical grid line at multiplier i, with its label under the axis. */
  function Column(i: int, height: real, xScale: real): (c: seq<Cmd>)
    ensures |c| == 5 && c[1].MoveTo? && c[2].LineTo? && c[4].Label?
    ensures c[1].x == c[2].x == c[4].x == PlotX(i as real, xScale)
    ensures c[1].y == PadTop && c[2].y == BaseY(height) && c[4].value == i as real
  {
    var x := PlotX(i as real, xScale);
    [BeginPath, MoveTo(x, PadTop), LineTo(x, BaseY(height)), Stroke(Solid(GridColour)),
     Label(i as real, x, BaseY(height) + 20.0)]
  }

  /** The horizontal grid line at multiplier i, with its label left of the axis. */
  function Row(i: int, width: real, height: real, yScale: real): (c: seq<Cmd>)
    ensures |c| == 5 && c[1].MoveTo? && c[2].LineTo? && c[4].Label?
    ensures c[1].y == c[2].y == PlotY(i as real, yScale, height)
    ensures c[1].x == PadLeft && c[2].x == width - PadRight && c[4].value == i as real
  {
    var y := PlotY(i as real, yScale, height);
    [BeginPath, MoveTo(PadLeft, y), LineTo(width - PadRight, y), Stroke(Solid(GridColour)),
     Label(i as real, PadLeft - 10.0, y + 5.0)]
  }

  /** The first n vertical lines, at 0, step, 2 * step, ... */
  function Columns(n: nat, step: int, height: real, xScale: real): seq<Cmd> {
    if n == 0 then [] else Columns(n - 1, step, height, xScale) + Column((n - 1) * step, height, xScale)
  }

  function Rows(n: nat, step: int, width: real, height: real, yScale: real): seq<Cmd> {
    if n == 0 then [] else Rows(n - 1, step, width, height, yScale) + Row((n - 1) * step, width, height, yScale)
  }

  /** j steps of size s stay within displayMax exactly when j is at most
      floor(displayMax / s). */
  lemma StepsWithin(j: int, s: int, displayMax: real)
    requires s > 0
    ensures (j * s) as real <= displayMax <==> j <= (displayMax / s as real).Floor
  {
    var q := displayMax / s as real;
    assert displayMax == q * s as real;
    assert (j * s) as real == j as real * s as real;
    if j as real <= q {
      assert j as real * s as real <= q * s as real;
    } else {
      assert j as real * s as real > q * s as real;
    }
  }

  /** drawGrid: one vertical line per multiple of the grid step up to
      displayMax, then the same number of horizontal lines; each line is
      five commands, so there are floor(displayMax / step) + 1 lines per
      axis. */
  method DrawGrid(width: real, height: real, displayMax: real, xScale: real, yScale: real)
    returns (cmds: seq<Cmd>)
    requires displayMax > 0.0
    ensures var step := GridStep(displayMax);
      cmds == Columns(LineCount(displayMax, step), step, height, xScale) +
              Rows(LineCount(displayMax, step), step, width, height, yScale)
  {
    var gridStep := GridStep(displayMax);
    var columns := GridColumns(height, displayMax, gridStep, xScale);
    var rows := GridRows(width, height, displayMax, gridStep, yScale);
    cmds := columns + rows;
  }

  /** drawGrid's first loop: `for (i = 0; i <= displayMax; i += gridStep)`,
      a vertical line at each i. */
  method GridColumns(height: real, displayMax: real, gridStep: int, xScale: real)
    returns (columns: seq<Cmd>)
    requires gridStep > 0 && displayMax >= 0.0
    ensures columns == Columns(LineCount(displayMax, gridStep), gridStep, height, xScale)
  {
    ghost var n := LineCount(displayMax, gridStep);
    columns := [];
    var i := 0;
    ghost var k := 0;
    StepsWithin(0, gridStep, displayMax);
    while i as real <= displayMax
      invariant 0 <= k && i == k * gridStep
      invariant k <= n
      invariant columns == Columns(k, gridStep, height, xScale)
      decreases n - k
    {
      StepsWithin(k, gridStep, displayMax);
      var x := PlotX(i as real, xScale);
      columns := columns + [BeginPath, MoveTo(x, PadTop), LineTo(x, height - PadBottom),
                            Stroke(Solid(GridColour)), Label(i as real, x, height - PadBottom + 20.0)];
      i := i + gridStep;
      k := k + 1;
    }
    StepsWithin(k, gridStep, displayMax);
  }

  /** drawGrid's second loop: a horizontal line at each i. */
  method GridRows(width: real, height: real, displayMax: real, gridStep: int, yScale: real)
    returns (rows: seq<Cmd>)
    requires gridStep > 0 && displayMax >= 0.0
    ensures rows == Rows(LineCount(displayMax, gridStep), gridStep, width, height, yScale)
  {
    ghost var n := LineCount(displayMax, gridStep);
    rows := [];
    var i := 0;
    ghost var k := 0;
    StepsWithin(0, gridStep, displayMax);
    while i as real <= displayMax
      invariant 0 <= k && i == k * gridStep
      invariant k <= n
      invariant rows == Rows(k, gridStep, width, height, yScale)
      decreases n - k
    {
      StepsWithin(k, gridStep, displayMax);
      var y := PlotY(i as real, yScale, height);
      rows := rows + [BeginPath, MoveTo(PadLeft, y), LineTo(width - PadRight, y),
                      Stroke(Solid(GridColour)), Label(i as real, PadLeft - 10.0, y + 5.0)];
      i := i + gridStep;
      k := k + 1;
    }
    StepsWithin(k, gridStep, displayMax);
  }

  /** Each axis gets five commands per grid line. */
  lemma {:induction false} GridSizes(n: nat, step: int, width: real, height: real, xScale: real, yScale: real)
    ensures |Columns(n, step, height, xScale)| == 5 * n
    ensures |Rows(n, step, width, height, yScale)| == 5 * n
  {
    if n > 0 {
      GridSizes(n - 1, step, width, height, xScale, yScale);
    }
  }

  /** The k-th vertical line is drawn at multiplier k * step. */
  lemma {:induction false} ColumnAt(n: nat, step: int, height: real, xScale: real, k: nat)
    requires k < n
    ensures |Columns(n, step, height, xScale)| == 5 * n
    ensures Columns(n, step, height, xScale)[5 * k + 1] == MoveTo(PadLeft + (k * step) as real * xScale, PadTop)
  {
    GridSizes(n, step, 0.0, height, xScale, 0.0);
    if k < n - 1 {
      ColumnAt(n - 1, step, height, xScale, k);
      GridSizes(n - 1, step, 0.0, height, xScale, 0.0);
      assert Columns(n, step, height, xScale)[5 * k + 1] == Columns(n - 1, step, height, xScale)[5 * k + 1];
    } else {
      GridSizes(n - 1, step, 0.0, height, xScale, 0.0);
    }
  }

  /** The k-th horizontal line is drawn at multiplier k * step. */
  lemma {:induction false} RowAt(n: nat, step: int, width: real, height: real, yScale: real, k: nat)
    requires k < n
    ensures |Rows(n, step, width, height, yScale)| == 5 * n
    ensures Rows(n, step, width, height, yScale)[5 * k + 1] == MoveTo(PadLeft, PlotY((k * step) as real, yScale, height))
  {
    GridSizes(n, step, width, height, 0.0, yScale);
    if k < n - 1 {
      RowAt(n - 1, step, width, height, yScale, k);
      GridSizes(n - 1, step, width, height, 0.0, yScale);
      assert Rows(n, step, width, height, yScale)[5 * k + 1] == Rows(n - 1, step, width, height, yScale)[5 * k + 1];
    } else {
      GridSizes(n - 1, step, width, height, 0.0, yScale);
    }
  }

  /** Up to a display range of 50 there are at most 11 lines per axis. */
  lemma AtMostElevenLines(displayMax: real)
    requires 0.0 < displayMax <= 50.0
    ensures LineCount(displayMax, GridStep(displayMax)) <= 11
  {
    var s := GridStep(displayMax);
    StepsWithin(11, s, displayMax);
    assert (11 * s) as real > displayMax;
  }

  // ---------------------------------------------------------------------------
  // drawAxes
  // ---------------------------------------------------------------------------

  /** The x axis along the bottom and the y axis along the left of the plot. */
  function Axes(width: real, height: real): (cmds: seq<Cmd>)
    ensures |cmds| == 8
    ensures cmds[1] == MoveTo(PadLeft, BaseY(height)) && cmds[2] == LineTo(width - PadRight, BaseY(height))
    ensures cmds[5] == MoveTo(PadLeft, BaseY(height)) && cmds[6] == LineTo(PadLeft, PadTop)
  {
    [BeginPath, MoveTo(PadLeft, height - PadBottom), LineTo(width - PadRight, height - PadBottom), Stroke(Solid(AxisColour)),
     BeginPath, MoveTo(PadLeft, height - PadBottom), LineTo(PadLeft, PadTop), Stroke(Solid(AxisColour))]
  }

  /** The axes are where the value 0 is plotted: the x axis runs along the
      grid's zero row, from its left end to its right end, the y axis lies on
      the grid's zero column, and both start at the origin the curve opens
      with. */
  lemma AxesAtZero(rel: seq<real>, n: nat, step: int, width: real, height: real, xScale: real, yScale: real)
    requires n > 0
    ensures |Columns(n, step, height, xScale)| == |Rows(n, step, width, height, yScale)| == 5 * n
    ensures var axes := Axes(width, height);
      && axes[1..3] == Rows(n, step, width, height, yScale)[1..3]
      && axes[1].y == axes[2].y == PlotY(0.0, yScale, height)
      && Columns(n, step, height, xScale)[1] == MoveTo(axes[5].x, PadTop)
      && axes[5].x == axes[6].x == PlotX(0.0, xScale)
      && axes[1] == axes[5] == Curve(rel, height, xScale, yScale)[0]
  {
    GridSizes(n, step, width, height, xScale, yScale);
    ZeroLines(n, step, width, height, xScale, yScale);
  }

  /** The first line of each grid loop is the one at 0. */
  lemma {:induction false} ZeroLines(n: nat, step: int, width: real, height: real, xScale: real, yScale: real)
    requires n > 0
    ensures |Columns(n, step, height, xScale)| >= 5 && Columns(n, step, height, xScale)[..5] == Column(0, height, xScale)
    ensures |Rows(n, step, width, height, yScale)| >= 5 && Rows(n, step, width, height, yScale)[..5] == Row(0, width, height, yScale)
  {
    GridSizes(n, step, width, height, xScale, yScale);
    if n > 1 {
      ZeroLines(n - 1, step, width, height, xScale, yScale);
      GridSizes(n - 1, step, width, height, xScale, yScale);
      assert Columns(n, step, height, xScale)[..5] == Columns(n - 1, step, height, xScale)[..5];
      assert Rows(n, step, width, height, yScale)[..5] == Rows(n - 1, step, width, height, yScale)[..5];
    }
  }

  // ---------------------------------------------------------------------------
  // drawCurve and drawCurrentPoint
  // ---------------------------------------------------------------------------

  /** The end index that `Array.prototype.slice(0, end)` uses on a list of
      length len: a negative end counts from the back, a large one is capped. */
  function SliceEnd(len: nat, end: int): (e: nat)
    ensures e <= len
    ensures 0 <= end <= len ==> e == end
    ensures end > len ==> e == len
  {
    if end < 0 then (if len + end < 0 then 0 else len + end)
    else if end > len then len
    else end
  }

  /** `wsData.slice(0, dataIndex + 1)`: the samples the curve goes through. */
  function Relevant(ws: seq<real>, dataIndex: int): (rel: seq<real>)
    ensures |rel| <= |ws| && rel == ws[..|rel|]
    ensures 0 <= dataIndex < |ws| ==> |rel| == dataIndex + 1
  {
    ws[..SliceEnd(|ws|, dataIndex + 1)]
  }

  /** The first sample is skipped when it is not above 0: no segment is drawn
      to it. */
  function Skip(rel: seq<real>): (s: nat)
    ensures s <= 1 && (s == 1 <==> |rel| > 0 && rel[0] <= 0.0)
  {
    if |rel| > 0 && rel[0] <= 0.0 then 1 else 0
  }

  /** The curve's tension: `min(0.7, 0.2 + v / 30)`. */
  function Tension(v: real): (t: real)
    ensures t <= 0.7
    ensures v >= 0.0 ==> 0.2 <= t
    ensures t == 0.7 <==> v >= 15.0
  {
    var raw := 0.2 + v / 30.0;
    if raw < 0.7 then raw else 0.7
  }

  /** What drawCurve's path is after the first `done` relevant samples: a
      move to the origin, a straight segment to the first sample when it is
      above 0, then one curved segment per later sample. A curved segment
      ends at its sample's plotted point; its control point lies halfway
      along x between the previous end point and its own, and a `Tension`
      fraction of the way along y. */
  function CurveCmds(rel: seq<real>, done: nat, height: real, xScale: real, yScale: real): (path: seq<Cmd>)
    requires done <= |rel|
    ensures |path| == (if done == 0 then 1 else done + 1 - Skip(rel))
    ensures path[0] == MoveTo(PadLeft, BaseY(height))
    ensures IsPoint(path[|path| - 1])
    decreases done
  {
    if done == 0 then [MoveTo(PadLeft, BaseY(height))]
    else
      var prev := CurveCmds(rel, done - 1, height, xScale, yScale);
      var v := rel[done - 1];
      var x := PlotX(v, xScale);
      var y := PlotY(v, yScale, height);
      if done == 1 then
        (if v > 0.0 then prev + [LineTo(x, y)] else prev)
      else
        var last := prev[|prev| - 1];
        prev + [Segment(last.x, last.y, x, y, Tension(v))]
  }

  /** The curved segment from (px, py) to (x, y) with tension t. */
  function Segment(px: real, py: real, x: real, y: real, t: real): (c: Cmd)
    ensures c.QuadTo? && c.x == x && c.y == y
  {
    QuadTo(px + (x - px) * 0.5, py - (py - y) * t, x, y)
  }

  /** One sample more: the unfolding of CurveCmds the loop relies on. */
  lemma CurveStep(rel: seq<real>, done: nat, height: real, xScale: real, yScale: real)
    requires done < |rel|
    ensures var p := CurveCmds(rel, done, height, xScale, yScale);
      var v := rel[done];
      var last := p[|p| - 1];
      CurveCmds(rel, done + 1, height, xScale, yScale) ==
        if done > 0 then p + [Segment(last.x, last.y, PlotX(v, xScale), PlotY(v, yScale, height), Tension(v))]
        else if v > 0.0 then p + [LineTo(PlotX(v, xScale), PlotY(v, yScale, height))]
        else p
  {
  }

  /** The whole path through every relevant sample. */
  function Curve(rel: seq<real>, height: real, xScale: real, yScale: real): (path: seq<Cmd>)
    ensures |path| == |rel| + 1 - Skip(rel)
    ensures path[0] == MoveTo(PadLeft, BaseY(height))
  {
    CurveCmds(rel, |rel|, height, xScale, yScale)
  }

  /** The k-th point of the path (k >= 1) is the plotted point of sample
      k - 1 + Skip(rel); only the first segment can be straight, and it is
      when the first sample is above 0. */
  lemma {:induction false} CurvePointAt(rel: seq<real>, done: nat, height: real, xScale: real, yScale: real, k: nat)
    requires done <= |rel|
    requires 1 <= k < |CurveCmds(rel, done, height, xScale, yScale)|
    ensures var c := CurveCmds(rel, done, height, xScale, yScale)[k];
      && (c.LineTo? || c.QuadTo?)
      && (c.LineTo? <==> k == 1 && Skip(rel) == 0)
      && k - 1 + Skip(rel) < done
      && c.x == PlotX(rel[k - 1 + Skip(rel)], xScale)
      && c.y == PlotY(rel[k - 1 + Skip(rel)], yScale, height)
  {
    var prev := CurveCmds(rel, done - 1, height, xScale, yScale);
    if k < |prev| {
      CurvePointAt(rel, done - 1, height, xScale, yScale, k);
      assert CurveCmds(rel, done, height, xScale, yScale)[k] == prev[k];
    }
  }

  /** A curved segment's control point lies halfway between its two ends
      along x, and a t fraction of the way from (px, py) along y. */
  lemma SegmentControl(px: real, py: real, x: real, y: real, t: real)
    ensures var c := Segment(px, py, x, y, t);
      c.QuadTo? && c.x == x && c.y == y && c.cpx == (px + x) / 2.0 && c.cpy == py - (py - y) * t
  {
  }

  /** The k-th segment, when it is curved, is the Segment from the
      (k-1)-th point to the k-th with the tension of the k-th point's sample;
      by SegmentControl its control point lies halfway between the two along
      x and a Tension(v) fraction of the way along y. */
  lemma {:induction false} CurveControlAt(rel: seq<real>, done: nat, height: real, xScale: real, yScale: real, k: nat)
    requires done <= |rel|
    requires 1 <= k < |CurveCmds(rel, done, height, xScale, yScale)|
    requires CurveCmds(rel, done, height, xScale, yScale)[k].QuadTo?
    ensures var path := CurveCmds(rel, done, height, xScale, yScale);
      && IsPoint(path[k - 1])
      && k - 1 + Skip(rel) < |rel|
      && path[k] == Segment(path[k - 1].x, path[k - 1].y, path[k].x, path[k].y, Tension(rel[k - 1 + Skip(rel)]))
  {
    var path := CurveCmds(rel, done, height, xScale, yScale);
    var prev := CurveCmds(rel, done - 1, height, xScale, yScale);
    CurveStep(rel, done - 1, height, xScale, yScale);
    CurvePointAt(rel, done, height, xScale, yScale, k);
    if k < |prev| {
      CurveControlAt(rel, done - 1, height, xScale, yScale, k);
      assert path[k] == prev[k] && path[k - 1] == prev[k - 1];
    } else {
      var last := prev[|prev| - 1];
      var v := rel[done - 1];
      assert path[k - 1] == last;
      assert k - 1 + Skip(rel) == done - 1;
    }
  }

  /** The path-building part of drawCurve: the `forEach` over the relevant
      samples, tracking the previous point. */
  method CurvePath(ws: seq<real>, dataIndex: int, height: real, xScale: real, yScale: real)
    returns (path: seq<Cmd>)
    ensures path == Curve(Relevant(ws, dataIndex), height, xScale, yScale)
  {
    var startX := PadLeft;
    var startY := height - PadBottom;
    path := [MoveTo(startX, startY)];
    var relevantData := ws[..SliceEnd(|ws|, dataIndex + 1)];
    var prevX, prevY := startX, startY;
    for index := 0 to |relevantData|
      invariant path == CurveCmds(relevantData, index, height, xScale, yScale)
      invariant prevX == path[|path| - 1].x && prevY == path[|path| - 1].y
    {
      CurveStep(relevantData, index, height, xScale, yScale);
      var v := relevantData[index];
      var x := PlotX(v, xScale);
      var y := PlotY(v, yScale, height);
      if index == 0 {
        if v > 0.0 {
          path := path + [LineTo(x, y)];
          prevX, prevY := x, y;
        }
      } else {
        var cpX1 := prevX + (x - prevX) * 0.5;
        var tensionY := Tension(v);
        var cpY1 := prevY - (prevY - y) * tensionY;
        SegmentControl(prevX, prevY, x, y, tensionY);
        path := path + [QuadTo(cpX1, cpY1, x, y)];
        prevX, prevY := x, y;
      }
    }
  }

  /** The origin itself lies on every line through it. */
  lemma OriginOnDiagonal(c: Cmd, height: real, xScale: real, yScale: real)
    requires c == MoveTo(PadLeft, BaseY(height))
    ensures OnDiagonal(c, height, xScale, yScale)
  {
    assert c.y - BaseY(height) == 0.0 && c.x - PadLeft == 0.0;
  }

  /** Every point the curve passes through lies on the diagonal through the
      origin: the curve is a straight line whatever the samples are. */
  lemma CurveOnDiagonal(rel: seq<real>, height: real, xScale: real, yScale: real, k: nat)
    requires k < |Curve(rel, height, xScale, yScale)|
    ensures OnDiagonal(Curve(rel, height, xScale, yScale)[k], height, xScale, yScale)
  {
    var c := Curve(rel, height, xScale, yScale)[k];
    if k == 0 {
      OriginOnDiagonal(c, height, xScale, yScale);
    } else {
      CurvePointAt(rel, |rel|, height, xScale, yScale, k);
      PlotOnDiagonal(rel[k - 1 + Skip(rel)], xScale, yScale, height, c);
    }
  }

  /** The colours of drawCurve and drawCurrentPoint, chosen by `crashed` alone. */
  datatype Palette = Palette(stroke: string, fromStop: string, toStop: string, point: string, glow: string)

  function PaletteFor(crashed: bool): (p: Palette)
    ensures p.stroke == p.point
    ensures crashed ==> p.fromStop == p.toStop
  {
    if crashed then
      Palette("rgba(255, 71, 87, 1)", "rgba(255, 71, 87, 0.8)", "rgba(255, 71, 87, 0.8)",
              "rgba(255, 71, 87, 1)", "rgba(255, 71, 87, 0.8)")
    else
      Palette("rgba(0, 215, 187, 1)", "rgba(0, 215, 187, 0.4)", "rgba(0, 215, 187, 0.8)",
              "rgba(0, 215, 187, 1)", "rgba(0, 215, 187, 0.8)")
  }

  /** The growing and crashed palettes share no colour. */
  lemma PalettesDiffer()
    ensures PaletteFor(true).stroke != PaletteFor(false).stroke
    ensures PaletteFor(true).fromStop != PaletteFor(false).fromStop
    ensures PaletteFor(true).toStop != PaletteFor(false).toStop
    ensures PaletteFor(true).glow != PaletteFor(false).glow
  {
  }

  /** The label offset: moved 80 to the left when fewer than 80 pixels remain
      to the right edge, otherwise 15 to the right. Either way a label for a
      point on the canvas starts at least 65 pixels before the edge. */
  function TextOffset(width: real, x: real): (off: real)
    ensures off == -80.0 <==> width - x < 80.0
    ensures off == 15.0 <==> width - x >= 80.0
    ensures x <= width ==> width - (x + off) >= 65.0
  {
    if width - x < 80.0 then -80.0 else 15.0
  }

  /** drawCurrentPoint: the marker, its glow and the value label. */
  function CurrentPoint(x: real, y: real, value: real, crashed: bool, width: real): (cmds: seq<Cmd>)
    ensures |cmds| == 3
    ensures cmds[2].Label? && cmds[2].value == value && cmds[2].y == y - 10.0
    ensures x <= width ==> width - cmds[2].x >= 65.0
  {
    var p := PaletteFor(crashed);
    [Dot(x, y, 8.0, p.point), GlowDot(x, y, 5.0, p.point, p.glow),
     Label(value, x + TextOffset(width, x), y - 10.0)]
  }

  /** The value of the last relevant sample, 0 when there is none. */
  function LastValue(rel: seq<real>): (v: real)
    ensures |rel| > 0 ==> v == rel[|rel| - 1]
    ensures |rel| == 0 ==> v == 0.0
  {
    if |rel| > 0 then rel[|rel| - 1] else 0.0
  }

  /** What drawCurve issues after the path: the stroke in the state's colour,
      the area under the curve closed down to the x axis and filled with a
      gradient from the origin to the last point, and the current-point
      marker. */
  function CurveFinish(rel: seq<real>, height: real, xScale: real, yScale: real, crashed: bool, width: real)
    : (cmds: seq<Cmd>)
    ensures |cmds| == 7
    ensures cmds[0] == Stroke(Solid(PaletteFor(crashed).stroke))
    ensures cmds[1] == LineTo(PlotX(LastValue(rel), xScale), BaseY(height))
    ensures cmds[2] == ClosePath
    ensures cmds[3] == Fill(Gradient(PadLeft, BaseY(height), PlotX(LastValue(rel), xScale),
                                     PlotY(LastValue(rel), yScale, height),
                                     PaletteFor(crashed).fromStop, PaletteFor(crashed).toStop))
    ensures cmds[4].Dot? && cmds[5].GlowDot?
    ensures cmds[4].cx == cmds[5].cx == PlotX(LastValue(rel), xScale)
    ensures cmds[4].cy == cmds[5].cy == PlotY(LastValue(rel), yScale, height)
    ensures cmds[6] == Label(LastValue(rel), PlotX(LastValue(rel), xScale) + TextOffset(width, PlotX(LastValue(rel), xScale)),
                             PlotY(LastValue(rel), yScale, height) - 10.0)
  {
    var lastV := LastValue(rel);
    var lastX := PlotX(lastV, xScale);
    var lastY := PlotY(lastV, yScale, height);
    var p := PaletteFor(crashed);
    var area := [Stroke(Solid(p.stroke)), LineTo(lastX, height - PadBottom), ClosePath,
                 Fill(Gradient(PadLeft, height - PadBottom, lastX, lastY, p.fromStop, p.toStop))];
    var marker := CurrentPoint(lastX, lastY, lastV, crashed, width);
    assert (area + marker)[1] == area[1] && (area + marker)[2] == area[2] && (area + marker)[3] == area[3];
    assert (area + marker)[4] == marker[0] && (area + marker)[5] == marker[1] && (area + marker)[6] == marker[2];
    area + marker
  }

  /** With no relevant sample, the marker sits on the origin. */
  lemma EmptySliceMarksOrigin(height: real, xScale: real, yScale: real, crashed: bool, width: real)
    ensures CurveFinish([], height, xScale, yScale, crashed, width)[4] ==
      Dot(PadLeft, BaseY(height), 8.0, PaletteFor(crashed).point)
  {
  }

  /** `crashed` changes the stroke colour and nothing of the geometry: the
      drop to the axis, the gradient's end points, the marker's position and
      the label are the same either way. */
  lemma CurveColoursFollowCrashed(rel: seq<real>, height: real, xScale: real, yScale: real, width: real)
    ensures var up := CurveFinish(rel, height, xScale, yScale, true, width);
      var down := CurveFinish(rel, height, xScale, yScale, false, width);
      && up[0] != down[0]
      && up[1..3] == down[1..3]
      && up[3].style.x0 == down[3].style.x0 && up[3].style.y0 == down[3].style.y0
      && up[3].style.x1 == down[3].style.x1 && up[3].style.y1 == down[3].style.y1
      && up[4].cx == down[4].cx && up[4].cy == down[4].cy
      && up[5].cx == down[5].cx && up[5].cy == down[5].cy
      && up[6] == down[6]
  {
    PalettesDiffer();
  }

  /** drawCurve: a fresh path, the curve, and the finishing commands. The
      `width` it hands to drawCurrentPoint is drawGraph's canvas width. */
  method DrawCurve(ws: seq<real>, dataIndex: int, height: real, xScale: real, yScale: real,
                   crashed: bool, width: real)
    returns (cmds: seq<Cmd>)
    ensures |cmds| >= 9 && cmds[0] == BeginPath
    ensures cmds[1..|cmds| - 7] == Curve(Relevant(ws, dataIndex), height, xScale, yScale)
    ensures cmds[|cmds| - 7..] == CurveFinish(Relevant(ws, dataIndex), height, xScale, yScale, crashed, width)
  {
    var path := CurvePath(ws, dataIndex, height, xScale, yScale);
    var finish := CurveFinish(Relevant(ws, dataIndex), height, xScale, yScale, crashed, width);
    cmds := [BeginPath] + path + finish;
    assert cmds[1..|cmds| - 7] == path;
  }

  /** drawGraph: the grid, the axes and the curve, in that order, with the
      scales that map [0, displayMax] onto the plot area. The `multiplier`
      argument is not used by the drawing. */
  method DrawGraph(ws: seq<real>, width: real, height: real, dataIndex: int, multiplier: real,
                   displayMax: real, crashed: bool)
    returns (cmds: seq<Cmd>)
    requires displayMax > 0.0
    ensures var xScale := XScale(width, displayMax);
      var yScale := YScale(height, displayMax);
      var step := GridStep(displayMax);
      var n := LineCount(displayMax, step);
      var grid := Columns(n, step, height, xScale) + Rows(n, step, width, height, yScale);
      && |cmds| >= |grid| + 8 + 9
      && cmds[..|grid|] == grid
      && cmds[|grid|..|grid| + 8] == Axes(width, height)
      && cmds[|grid| + 8] == BeginPath
      && cmds[|grid| + 9..|cmds| - 7] == Curve(Relevant(ws, dataIndex), height, xScale, yScale)
      && cmds[|cmds| - 7..] == CurveFinish(Relevant(ws, dataIndex), height, xScale, yScale, crashed, width)
  {
    var xScale := XScale(width, displayMax);
    var yScale := YScale(height, displayMax);
    var grid := DrawGrid(width, height, displayMax, xScale, yScale);
    var axes := Axes(width, height);
    var curve := DrawCurve(ws, dataIndex, height, xScale, yScale, crashed, width);
    cmds := grid + axes + curve;
    assert cmds[..|grid|] == grid;
    assert cmds[|grid|..|grid| + 8] == axes;
    assert cmds[|grid| + 9..|cmds| - 7] == curve[1..|curve| - 7];
    assert cmds[|cmds| - 7..] == curve[|curve| - 7..];
  }
}

=== FILE: scenarios.dfy ===
/** Whole rounds of the crash game, driven through the handlers of
    `Game.CrashGame` with fixed draws: the player stakes 50 from the starting
    balance of 1000 and either cashes out at 2x or rides the round into the
    crash. Every draw is 0.5, so the crash point is the 100x cap and no
    synthetic bet cashes out below 5x. */
module Scenarios {
  import opened BetLedger
  import opened Game

  /** Five draws of 0.5, for the amounts and names of the synthetic bets. */
  const HalfDraws: seq<real> := [0.5, 0.5, 0.5, 0.5, 0.5]

  /** A new game whose first round has been set up with all draws at 0.5. */
  method NewRound(now: int) returns (g: CrashGame)
    ensures fresh(g) && g.Valid()
    ensures g.waitingForNextGame && !g.isGameRunning && g.balance == 1000.0
    ensures g.targetCrashPoint == 100.0 && g.currentMultiplier == 1.0 && g.gameHistory == []
    ensures g.playerBet == None && !g.hasPlayerCashedOut
    ensures forall i :: 0 <= i < |g.bets| ==> g.bets[i].id.AiId?
  {
    g := new CrashGame();
    CrashPointCappedBelowPoint99(0.5);
    g.StartNewGame(0.5, 0.5, HalfDraws, HalfDraws, now);
  }

  /** Bet 50 while waiting, then cash out at 2x: the balance goes
      1000 -> 950 -> 1050, the bet is won with profit 50, and a second
      cashout changes nothing. */
  method CashOutAtTwo() returns (afterBet: real, afterCashout: real, profit: real, secondDone: bool)
    ensures afterBet == 950.0 && afterCashout == 1050.0 && profit == 50.0 && !secondDone
  {
    var g := NewRound(1);
    var placed := g.PlaceBet(50.0, 2.0, 2);
    assert g.bets[0] == NewPlayerBet(50.0, 2);
    afterBet := g.balance;
    g.StartRunning();
    var crashed := g.Tick(1.0, seq(|g.bets|, _ => 0.5));
    assert g.currentMultiplier == 2.0;
    var done := g.Cashout();
    afterCashout := g.balance;
    profit := g.playerBet.value.profit.value;
    secondDone := g.Cashout();
  }

  /** Bet 50 and never cash out: the tick that reaches the crash point ends
      the round, the bet is lost with profit -50, the balance stays at 950
      and the crash point is the one entry of the history. */
  method RideIntoCrash() returns (balance: real, status: Status, profit: real, history: seq<real>)
    ensures balance == 950.0 && status == Lost && profit == -50.0 && history == [100.0]
  {
    var g := NewRound(1);
    var placed := g.PlaceBet(50.0, 2.0, 2);
    g.StartRunning();
    var crashed := g.Tick(99.0, seq(|g.bets|, _ => 0.5));
    assert crashed;
    balance := g.balance;
    status := g.playerBet.value.status;
    profit := g.playerBet.value.profit.value;
    history := g.gameHistory;
  }

  /** A bet placed while the round runs is not listed, yet it still pays out
      on cashout, since handlePlaceBet has no phase check. */
  method BetWhileRunning() returns (listed: bool, afterCashout: real)
    ensures !listed && afterCashout == 1050.0
  {
    var g := NewRound(1);
    g.StartRunning();
    var placed := g.PlaceBet(50.0, 2.0, 2);
    assert placed == Placed && g.balance == 950.0 && g.playerBet == Some(NewPlayerBet(50.0, 2));
    listed := exists i :: 0 <= i < |g.bets| && g.bets[i].id == PlayerId(2);
    var crashed := g.Tick(1.0, seq(|g.bets|, _ => 0.5));
    assert !crashed && g.currentMultiplier == 2.0 && g.balance == 950.0;
    var done := g.Cashout();
    assert done;
    afterCashout := g.balance;
  }
}
